=== FILE: README.md ===
# aidocumentchat core in Dafny

This project models the core of a small retrieval-augmented question-answering agent, `agent.py`:

- **the chunker** (`_chunk_text`). It splits a document on blank lines, strips each paragraph and drops empty ones. A paragraph that fits in `max_chars` (1000) characters is one chunk. A longer paragraph is cut into windows of `max_chars` characters. Window starts advance by `max_chars - overlap` (overlap 200), and each window is stripped.
- **the `chunks` table and `ingest_document_text`**. The table is a `ChunkStore` object whose `rows` field is an append-only sequence. Ingestion chunks the text, embeds each chunk and appends one row per chunk with id `f"{doc_id}_chunk_{i}"`. It reports how many rows it added.
- **the ranking half of `search_document`**. For the rows of one document it scores every row whose stored embedding parses. It sorts the scores in descending order and keeps the first `max(0, top_k)`.
- **`agent_executor`**. This is a loop of at most four rounds over a growing list of chat messages. Each round asks the chat model for a response and detects a tool request under `function_call` or `tool_call`. A search request has its arguments resolved to `query`, `doc_id` and `top_k`, and its results are appended as a tool message. A request for an unknown tool appends an error message. A response with content and no tool request is the answer.

Modules:

| module | file | models |
|---|---|---|
| `Wrappers` | wrappers.dfy | `Option`, `Result`, `Min`, `Max` |
| `Strings` | strings.dfy | Python's `isspace`, `strip`, `split(sep)` and `sep.join` |
| `Numerals` | numerals.dfy | `str(n)` for chunk ids and `int(s)` for a textual `top_k` |
| `Chunker` | chunker.dfy | `_chunk_text` |
| `Store` | store.dfy | the `chunks` table, `ingest_document_text` |
| `Ranking` | ranking.dfy | the candidates loop, sort and slice of `search_document` |
| `Agent` | agent.dfy | `agent_executor` |

The outside world enters as function parameters. The embedding service is `Embedder = string -> Option<Vector>`, where `None` means the call raised. Cosine similarity is `Scorer = (Vector, Vector) -> real`. The chat model is `Model = (nat, seq<Message>) -> Option<Response>`: it sees the round number and the messages so far. `agent_executor` reaches search through `SearchTool`, a function from the resolved request to the ranked candidates or a failure. `Ranking.SearchDocument` is the modelled implementation of that step.

Each loop of the source is an imperative method, proved equal to a specification function:

- `ChunkText` and `AppendWindows` equal `Chunks` and `WindowsFrom`;
- `InsertChunks` equals `RowsOf` and `FirstFailure`;
- `Rank` equals `TopK` of `Candidates`;
- `AgentExecutor` equals `Run`.

The properties are then proved as lemmas about those functions.

Behaviour of the code worth knowing, all of it modelled as written:

- **Chunks can be empty.** A window is stripped after it is cut. A window that falls entirely inside a run of blanks in a long paragraph therefore yields the empty chunk. `Chunker.BlankWindowGivesEmptyChunk` exhibits this.
- **Re-ingestion repeats ids.** Ingesting a document a second time appends rows with the same chunk ids as the first time, and the earlier rows stay searchable. See `Store.ReingestionRepeatsChunkIds`.
- **No rollback.** When an embedding call fails, the rows written so far stay in the table. Each row is committed in its own transaction.
- **Detection reads only two keys.** A tool request is detected only under `function_call` or `tool_call`. The plural `tool_calls` list is never read. The scripted model of `test_agent.py` asks for search through `tool_calls`, so with that model the agent never searches and runs out of rounds (`Agent.TestAgentMockGetsNoAnswer`).
- **Few messages are appended.** The assistant's tool-request message is never appended to the conversation, and neither is the final answer. Only tool messages are added.
- **A missing `query` stays missing.** With non-empty arguments, a missing `query` key is passed to search as `None`. It is not replaced by the user question.

## Model

| member | source | states |
|---|---|---|
| Strings.Strip | agent.py:67 | `strip()` never lengthens its input; `StripSpec` gives the full description |
| Strings.SkipSpaces | agent.py:67 | the first non-whitespace index at or after `i`; everything skipped is whitespace |
| Strings.DropSpaces | agent.py:67 | the end of `s[..j]` without trailing whitespace; everything dropped is whitespace |
| Strings.StripSpec | agent.py:67 | `strip()` keeps a contiguous stretch of the input after the leading whitespace and followed only by whitespace. The result is empty exactly when the input is all whitespace; otherwise it neither starts nor ends with whitespace |
| Strings.StripIdempotent | agent.py:67 | stripping a stripped string changes nothing |
| Strings.Find | agent.py:67 | a found index is an occurrence of the separator |
| Strings.FindFirst | agent.py:67 | the found index is the first occurrence, and `None` means there is no occurrence at all |
| Strings.Split | agent.py:67 | `split` always yields at least one piece |
| Strings.SplitPiecesLackSeparator | agent.py:67 | no piece of `text.split("\n\n")` contains the separator |
| Strings.JoinSplit | agent.py:67 | joining the pieces with the separator gives back the text, so splitting loses nothing |
| Strings.SplitAtFirst | agent.py:67 | splitting cuts at the first occurrence and continues after it |
| Numerals.Decimal | agent.py:131 | `str(i)` is a non-empty run of ASCII digits, of length one exactly for `i < 10`, with no leading zero except for `0` itself |
| Numerals.DigitsValueDecimal | agent.py:131 | reading the digits of `str(n)` gives back `n` |
| Numerals.DecimalInjective | agent.py:131 | distinct numbers render differently |
| Numerals.ParseInt | agent.py:239 | `int(s)` succeeds only when the stripped text is non-empty and is digits after its first character |
| Numerals.ParseSigned | agent.py:239 | `int` of a sign and digits succeeds only on text that starts with a digit, or with a sign followed by at least one more character; the value is non-negative without a minus |
| Numerals.ParseIntIgnoresSpaces | agent.py:239 | `int(s)` equals `int(s.strip())`: surrounding whitespace is ignored |
| Numerals.ParseSignedOfDigits | agent.py:239 | digits `d`, `"+" + d` and `"-" + d` read as the value of `d`, that value again, and its negation |
| Numerals.ParseIntDecimal | agent.py:239 | `int(str(n)) == n` |
| Numerals.ParseIntNegative | agent.py:239 | `int("-" + digits)` is the negated value of the digits |
| Numerals.StripNumeral | agent.py:239 | a numeral has no surrounding whitespace, so `int` reads it as it stands |
| Chunker.StrippedPieces | agent.py:67 | the kept paragraphs are non-empty and already stripped, and there are no more of them than pieces |
| Chunker.StrippedPiecesAppend | agent.py:67 | the comprehension works piece by piece, in order: the paragraphs of two stretches of pieces are those of the first followed by those of the second |
| Chunker.StrippedPiecesOfPiece | agent.py:67 | one piece gives its stripped text when that is not empty, and nothing otherwise |
| Chunker.StrippedPiecesMembers | agent.py:67 | a text is a paragraph exactly when it is non-empty and is the strip of some piece |
| Chunker.Paragraphs | agent.py:67 | every paragraph is non-empty and already stripped |
| Chunker.Window | agent.py:77-78 | a stripped window has at most `max_chars` characters |
| Chunker.WindowStarts | agent.py:75-81 | the window starts begin at `start` and stay inside the paragraph. Consecutive starts differ by exactly `max_chars - overlap`. With a non-negative overlap the last window reaches the end. There are no starts exactly when `start` is past the end |
| Chunker.WindowsFrom | agent.py:75-81 | every window chunk has at most `max_chars` characters |
| Chunker.ParagraphChunks | agent.py:70-81 | every chunk of one paragraph has at most `max_chars` characters |
| Chunker.ChunkAll | agent.py:70-81 | every chunk of a list of paragraphs has at most `max_chars` characters |
| Chunker.Chunks | agent.py:65-82 | every chunk `_chunk_text` returns has at most `max_chars` characters |
| Chunker.ChunkText | agent.py:65-82 | the paragraph loop returns exactly the chunks of every paragraph, in paragraph order |
| Chunker.AppendWindows | agent.py:75-81 | the window loop appends exactly the stripped windows of the paragraph, in order |
| Chunker.LastWindowStep | agent.py:79-80 | the loop stops after the window that reaches the end |
| Chunker.NextWindowStep | agent.py:81 | otherwise the loop continues at `end - overlap` |
| Chunker.ChunkAllStep | agent.py:70-81 | the chunks of paragraph `k` follow those of the paragraphs before it |
| Chunker.WindowsFromStep | agent.py:76-81 | one window is emitted per turn, then the loop goes on from the next start |
| Chunker.WindowsAtStarts | agent.py:75-81 | the i-th window is the stripped slice at the i-th start |
| Chunker.WindowsCover | agent.py:75-81 | with `0 <= overlap < max_chars` every index of the paragraph lies in some window |
| Chunker.ChunkAllEmpty | agent.py:70-81 | non-empty paragraphs always give chunks: the chunks are empty exactly when there are no paragraphs |
| Chunker.PiecesChunksEmpty | agent.py:67-81 | the chunks of a list of pieces are empty exactly when every piece is blank |
| Chunker.ChunksEmptyExactly | agent.py:65-82 | `_chunk_text` returns no chunk exactly when every blank-line-separated piece of the text is blank |
| Chunker.ShortParagraphsKeptWhole | agent.py:71-73 | when every paragraph fits, the chunks are exactly the paragraphs |
| Chunker.NoProgressWithoutAdvance | agent.py:75-81 | with `overlap >= max_chars` the start never passes 0 and the window never reaches the end, so the loop does not terminate |
| Chunker.BlankWindowGivesEmptyChunk | agent.py:78 | a window made only of blanks yields an empty chunk |
| Store.ChunkId | agent.py:131 | a chunk id begins with its document id |
| Store.ChunkIdInjective | agent.py:131 | within one document, chunk ids are equal exactly when the chunk numbers are |
| Store.FirstFailure | agent.py:123-126 | the number of chunks the embedding service accepts before it first fails |
| Store.RowsOf | agent.py:123-133 | one row per chunk, in order: document id, `doc_id_chunk_i`, the chunk text and its vector |
| Store.RowsOfStep | agent.py:123-133 | one more embedded chunk appends its row at the end |
| Store.RowsWithDoc | agent.py:166 | the selection is no longer than the table, and every selected row belongs to the document |
| Store.RowsWithDocMembers | agent.py:166 | the selection holds exactly the table's rows of that document |
| Store.RowsWithDocAppend | agent.py:166 | selecting from two stretches of the table selects from each in turn |
| Store.RowsWithOwnDoc | agent.py:166 | rows that all belong to the document are all selected |
| Store.RowsWithoutDoc | agent.py:166 | rows of other documents are never selected |
| Store.IngestedChunkIdsDistinct | agent.py:131 | the rows of one ingestion have pairwise different chunk ids |
| Store.SelectAfterIngest | agent.py:128-132 | after an ingestion, the document's rows are the earlier ones followed by every new row |
| Store.OtherDocumentsUntouched | agent.py:128-132 | ingesting one document leaves every other document's rows unchanged |
| Store.ReingestionRepeatsChunkIds | agent.py:131 | ingesting the same chunks again writes the first chunk id a second time |
| Store.ChunkStore.constructor | agent.py:47-62 | the table opens with the rows it already holds |
| Store.ChunkStore.Select | agent.py:164-168 | `WHERE doc_id = :doc_id` returns exactly the stored rows of that document |
| Store.ChunkStore.IngestDocumentText | agent.py:117-135 | appends the rows of the chunks before the first embedding failure and changes nothing else. It reports `{doc_id, chunks_added = number of chunks}` exactly when no call failed; otherwise it reports the index of the failing chunk |
| Store.ChunkStore.InsertChunks | agent.py:121-135 | the insertion loop appends one row per chunk, in order, until the first failure. `inserted` counts them |
| Ranking.ParsedCount | agent.py:173-176 | the number of rows whose embedding parses is at most the number of rows |
| Ranking.Candidates | agent.py:170-178 | there is one candidate per row whose embedding parses. Every such row gives a candidate with its score, and every candidate comes from such a row |
| Ranking.CandidatesAppend | agent.py:170-178 | the loop works row by row, in order: the candidates of two stretches of rows are those of the first followed by those of the second |
| Ranking.CandidatesOfRow | agent.py:172-178 | a row gives its scored candidate when its embedding parses, and nothing when `json.loads` fails |
| Ranking.SearchResultLength | agent.py:170-181 | the search returns `min(max(0, top_k), n)` results, where `n` counts the rows whose embedding parses |
| Ranking.Insert | agent.py:180 | inserting into a descending list gives a descending permutation with one more element |
| Ranking.SortedTail | agent.py:180 | the tail of a descending list is descending and bounded by its head |
| Ranking.ConsSorted | agent.py:180 | a head at least as high as the rest keeps the list descending |
| Ranking.ConsAtMost | agent.py:180 | a bound on the head and on the rest bounds the whole list |
| Ranking.InsertBehindHead | agent.py:180 | the recursive case of the insertion keeps order, contents and bounds |
| Ranking.InsertInFront | agent.py:180 | a candidate that beats the head goes in front and keeps the list descending |
| Ranking.SortDesc | agent.py:180 | `sort(key=score, reverse=True)` gives a descending permutation of the candidates |
| Ranking.Kept | agent.py:181 | `[:max(0, top_k)]` keeps `min(max(0, top_k), n)` items: none for `top_k <= 0` and all for `top_k >= n` |
| Ranking.TopK | agent.py:180-181 | the sorted slice has `min(max(0, top_k), n)` items in descending order |
| Ranking.SortedPrefixDominates | agent.py:180-181 | in a descending list, everything before the cut scores at least everything after it |
| Ranking.PrefixOfSortedIsTopK | agent.py:180-181 | any prefix of a descending permutation is a top-k answer |
| Ranking.TopKIsTopK | agent.py:180-181 | the result has `min(max(0, top_k), n)` items in descending order. It is a sub-multiset of the candidates, and no left-out candidate outscores a kept one |
| Ranking.BestScoreRanksFirst | agent.py:180-181 | with `top_k >= 1` and some candidate, the first result has the best score |
| Ranking.Rank | agent.py:170-181 | the candidates loop, sort and slice return a top-k answer of the parsed rows |
| Ranking.SearchDocument | agent.py:157-181 | a failed query embedding raises; otherwise the result is the top-k of the document's parsed rows |
| Ranking.IngestedChunkIsCandidate | agent.py:128-178 | every chunk an ingestion writes is a candidate of the next search of its document, scored on its stored vector |
| Agent.Initial | agent.py:187-190 | the conversation starts with the system prompt and then the question |
| Agent.ToolArgs | agent.py:209-216 | a string is decoded with `json.loads` and its value kept, or becomes `{}` when it is not valid JSON. An already decoded value is kept when truthy and becomes `{}` otherwise. Absent arguments become `{}` |
| Agent.Detect | agent.py:206-232 | a detected request has a non-empty name and comes from `function_call` or `tool_call` |
| Agent.UnnamedCallIsNotDetected | agent.py:206-235 | a `function_call` (or, without one, a `tool_call`) with no name or the empty name is not a tool request, so the round goes on to the content |
| Agent.NamedCallIsDetected | agent.py:206-216 | a named `function_call` is detected with its arguments, and so is a named `tool_call` when there is no `function_call` |
| Agent.IntOf | agent.py:239 | `int` keeps an integer and truncates a float toward zero. It raises on `None` and on a list or dict |
| Agent.ResolveSearch | agent.py:238-240 | empty arguments give the question, the caller's document and 3. Truthy non-object arguments raise. There are no other failures than these and a `top_k` that `int` rejects. `MissingKeysInObject` gives the request read from non-empty object arguments |
| Agent.RoundOf | agent.py:235-261 | a round that continues appends exactly one message, and it is a tool message |
| Agent.RoundFinalExactly | agent.py:250-261 | a round ends with answer `c` exactly when the response has no tool request and its content `c` is non-empty |
| Agent.RoundSkippedExactly | agent.py:250-257 | a round is skipped exactly when the response has no tool request and no content |
| Agent.SearchRoundAppendsResults | agent.py:237-244 | a `search_document` request appends one tool message holding the search results. It raises when its arguments fail to resolve or the search fails |
| Agent.ModelFailureRaises | agent.py:194 | a model call that raises ends the call with that exception |
| Agent.Step | agent.py:193-261 | a finished loop stays finished. A running round adds at most one message to the end, and an answer carries the messages the round saw |
| Agent.Run | agent.py:263-264 | without a final answer, the messages returned are the prompt and the question followed by one tool message per tool round |
| Agent.FinishedNeverUnanswered | agent.py:244-261 | the loop finishes only by answering or raising |
| Agent.PlayRound | agent.py:194-261 | one round of detection and tool handling does what `RoundOf` describes |
| Agent.AgentExecutor | agent.py:186-264 | the loop returns `Run`'s outcome after at most four model calls, and exactly four when there is no final answer |
| Agent.FinishedIsFinal | agent.py:244-261 | once the loop has returned or raised, later rounds change nothing |
| Agent.ConversationShape | agent.py:187-248 | while running, the messages are the prompt and the question followed by one tool message per tool round |
| Agent.MessagesOnlyGrow | agent.py:243-248 | the messages at a later round extend those at an earlier one |
| Agent.AnswerIsFinalRound | agent.py:250-264 | the result is the answer `c` exactly when some round within the limit finds the loop running and the model's response to that round's messages has no tool request and non-empty content `c`. The messages returned are that round's |
| Agent.AnsweringRound | agent.py:250-264 | an answer `c` with messages `m` was given by a round within the limit that found the loop running on `m` and got a final response with content `c` |
| Agent.FinalRoundAnswers | agent.py:250-264 | a round within the limit that finds the loop running on `m` and gets a final response with content `c` makes the call return `c` with `m` |
| Agent.FinishingRound | agent.py:250-264 | a finished loop was finished by one round that found it running |
| Agent.ToolRequestNeverAnswers | agent.py:235-248 | a round with a tool request continues or raises. An unknown tool appends the error message |
| Agent.SilentRoundsKeepMessages | agent.py:250-257 | rounds with neither a tool request nor content are used up without changing the messages |
| Agent.AlwaysUnknownToolHitsLimit | agent.py:245-264 | a model that always asks for an unknown tool exhausts the rounds, with four error messages after the prompt and question |
| Agent.ToolRoundsCount | agent.py:245-248 | under that model every round is a tool round |
| Agent.DetectionPrefersFunctionCall | agent.py:206-208 | `function_call` wins whenever present, even without a name |
| Agent.DetectionIgnoresToolCalls | agent.py:206 | the plural `tool_calls` list has no effect on detection |
| Agent.SearchDefaults | agent.py:238-240 | absent, unparsable or empty arguments search for the question in the caller's document with `top_k` 3 |
| Agent.MissingKeysInObject | agent.py:238-240 | non-empty arguments are read key by key: the request is `(args.get("query"), args.get("doc_id", doc_id), int(args.get("top_k", 3)))`, or the call raises when that `int` raises. A missing `query` is `None`, not the question; without `top_k` the search asks for 3 |
| Agent.SearchCallUsesItsArguments | agent.py:206-244 | a `search_document` call whose arguments are a JSON-encoded non-empty object searches with that object's `query`, `doc_id` and `top_k` and appends the results as a tool message; a rejected `top_k` or a failed search raises |
| Agent.FullArgumentsSearchedAsGiven | agent.py:238-240 | arguments carrying a string `query`, a string `doc_id` and an integer `top_k`, as `test_agent.py`'s scripted model sends, are searched exactly as given |
| Agent.TopKFromDecimalString | agent.py:239 | a `top_k` given as the decimal text of `n` asks for `n` results |
| Agent.TopKNotNumberRaises | agent.py:239 | a `top_k` of `None` or `""` raises |
| Agent.FirstToolTexts | test_agent.py:62-65 | texts are found only when some tool message exists |
| Agent.MockResponse | test_agent.py:46-67 | the scripted model never fills `function_call` or `tool_call`. Until a tool message exists it asks through one `tool_calls` entry with no content |
| Agent.MockSilentAtStart | test_agent.py:46-59 | on the starting messages the scripted model's request is not detected and it gives no content |
| Agent.SilentModelKeepsStart | agent.py:250-257 | a model that stays silent on the starting messages leaves them unchanged round after round |
| Agent.TestAgentMockGetsNoAnswer | test_agent.py:46-67 | with the scripted model the agent ends with no final answer on the two starting messages |

## Left out

- OpenAI calls (`call_llm`, `client.embeddings.create`): network I/O. They are the `Model` and `Embedder` parameters.
- SQLAlchemy, the SQL text and transactions: the table is an in-memory sequence. The model takes the rows `SELECT` returns to be in table order, and the auto-increment `id` column is not modelled.
- `_cosine_similarity`: floating-point arithmetic and `math.sqrt`. It is the `Scorer` parameter, so the zero-norm guard and the silent truncation of `zip` on vectors of different lengths are not modelled.
- Ranking.Candidates: a stored embedding either parses to a vector or is skipped. An embedding that is valid JSON but not a list of numbers makes `_cosine_similarity` raise, and that exception is not modelled.
- Store.Embedder: the embedding service, and likewise `Agent.SearchTool`, is a deterministic function of its input. A service that fails on the second call for a text it accepted the first time, or returns another vector, is not modelled; `Store.ReingestionRepeatsChunkIds` compares only chunk ids for that reason.
- JSON encoding and decoding: a tool's `arguments` string arrives already decoded, or marked as not valid JSON (`Encoded(None)`). Stored embeddings are marked as parsing or not, and tool output is kept as structured values rather than JSON text.
- File text extraction (`_extract_text_from_file`, `ingest_document_file`), the CLI loop, `print` logging, api.py, db.py, run_server.py and tools_schema.py are not part of this model.
- The dict-like and attribute-like probes of the response (`msg.__dict__`, `getattr`, the swallowed exceptions) collapse into one `Response` record. A call record is present only when it is truthy. The search tool is one function from the resolved request, so `search_document` receiving a non-string `query` or `doc_id` is left to that function.
- Agent.IntOf: `int` on text follows only ASCII digits with an optional sign and surrounding whitespace. Underscores, non-ASCII digits, and the `inf`/`nan` floats that make `int` raise are not modelled.
- Agent.RoundOf: the truthiness of the content is modelled for `None` and `""` only.
- Chunker.ChunkText: it requires `0 < max_chars` and `overlap < max_chars`, which the only caller meets with 1000 and 200. With `overlap >= max_chars` the window loop does not terminate on a paragraph longer than `max_chars`, which `Chunker.NoProgressWithoutAdvance` states. Settings with `max_chars <= 0` are not modelled: there a negative window end counts from the end of the paragraph in Python's slicing.
- Ranking.SortDesc: the sort is modelled on values, not in place. The order among equal scores is not stated. `TopKIsTopK` holds for any tie order.
- Agent.AgentExecutor: the number of model calls is a ghost out-parameter.

=== FILE: agent.dfy ===
/*
 * `agent_executor` (agent.py): a bounded tool-calling loop over a growing
 * list of chat messages.
 *
 * The chat model and the search tool are function parameters. The model
 * sees the round number and the messages so far and answers with an
 * abstract response (or fails, as the Python call raises); the search tool
 * receives the resolved arguments and returns the ranked passages (or
 * fails). The dict-like and attribute-like shapes the Python code probes
 * are collapsed into one response record.
 */
module Agent {
  import opened Wrappers
  import Numerals
  import Strings
  import Ranking

  /** `max_rounds`. */
  const MaxRounds: nat := 4

  /** The one tool the agent knows. */
  const SearchToolName: string := "search_document"

  /** The `top_k` used when the arguments do not give one. */
  const DefaultTopK: int := 3

  datatype Role = System | User | Tool

  /**
   * What a message carries: the system prompt, plain text, or tool output
   * (JSON text in the source, kept structured here).
   */
  datatype Content =
    | PromptText  // stands for the fixed `SYSTEM_PROMPT` text, which no property depends on
    | Text(text: string)
    | SearchResults(results: seq<Ranking.Candidate>)
    | UnknownToolError

  datatype Message = Message(role: Role, name: Option<string>, content: Content)

  /** A decoded JSON value found under one key of the tool arguments. */
  datatype ArgValue =
    | Str(s: string)
    | Int(i: int)
    | Float(r: real)
    | Bool(b: bool)
    | Null
    | Compound(nonEmpty: bool)  // a list or an object

  /** Decoded tool arguments: an object, or some other JSON value with its truthiness. */
  datatype JsonArgs = Object(fields: map<string, ArgValue>) | NonObject(truthy: bool)

  /** The `arguments` slot of a call record. */
  datatype Arguments =
    | Encoded(decoded: Option<JsonArgs>)  // a string; None when it is not valid JSON
    | Decoded(value: JsonArgs)            // already a value
    | Absent

  /** A `function_call` / `tool_call` record; present only when it is a non-empty record. */
  datatype ToolCall = ToolCall(name: Option<string>, arguments: Arguments)

  /** The assistant message of one model response. */
  datatype Response = Response(
    functionCall: Option<ToolCall>,
    toolCall: Option<ToolCall>,
    toolCalls: seq<ToolCall>,  // the plural list form, which the agent never reads
    content: Option<string>)

  /** A detected tool request: a non-empty name and the decoded arguments. */
  datatype ToolRequest = ToolRequest(name: string, args: JsonArgs)

  /** The positional arguments of `search_document(q, d_id, top_k)`. */
  datatype SearchRequest = SearchRequest(query: ArgValue, docId: ArgValue, topK: int)

  /** The exceptions that escape `agent_executor`. */
  datatype Failure =
    | ModelCallFailed       // the chat completion call raised
    | ArgumentsNotObject    // `.get` on truthy arguments that are not an object
    | TopKNotInteger        // `int(...)` of the `top_k` argument raised
    | SearchFailed          // `search_document` raised

  /** What `agent_executor` returns, or the exception it raises. */
  datatype Outcome =
    | Answer(answer: string, messages: seq<Message>)
    | NoFinalAnswer(messages: seq<Message>)
    | Raised(failure: Failure)

  type Model = (nat, seq<Message>) -> Option<Response>
  type SearchTool = SearchRequest -> Option<seq<Ranking.Candidate>>

  /** One call of `agent_executor(user_question, doc_id)` with its collaborators. */
  datatype Env = Env(question: string, docId: string, llm: Model, search: SearchTool)

  /** The messages the loop starts from: the system prompt, then the question. */
  function Initial(question: string): (m: seq<Message>)
    ensures |m| == 2 && m[0].role == System && m[1].role == User
    ensures m[1].content == Text(question)
  {
    [Message(System, None, PromptText), Message(User, None, Text(question))]
  }

  /** Python truthiness of decoded arguments. */
  predicate Truthy(a: JsonArgs) {
    match a
    case Object(fields) => fields != map[]
    case NonObject(t) => t
  }

  /** `tool_args` for an `arguments` slot: unparsable or absent arguments become `{}`. */
  function ToolArgs(a: Arguments): (j: JsonArgs)
    ensures a.Absent? || a == Encoded(None) ==> j == Object(map[])
    ensures a.Encoded? && a.decoded.Some? ==> j == a.decoded.value
    ensures a.Decoded? && Truthy(a.value) ==> j == a.value
    ensures a.Decoded? && !Truthy(a.value) ==> j == Object(map[])
  {
    match a
    case Encoded(None) => Object(map[])
    case Encoded(Some(j)) => j
    case Decoded(j) => if Truthy(j) then j else Object(map[])
    case Absent => Object(map[])
  }

  /** Tool detection: `function_call` when present, else `tool_call`; the name must be non-empty. */
  function Detect(resp: Response): (req: Option<ToolRequest>)
    ensures req.Some? ==> req.value.name != ""
    ensures req.Some? ==> resp.functionCall.Some? || resp.toolCall.Some?
  {
    var fc := if resp.functionCall.Some? then resp.functionCall else resp.toolCall;
    match fc
    case None => None
    case Some(call) =>
      if call.name.Some? && call.name.value != "" then Some(ToolRequest(call.name.value, ToolArgs(call.arguments)))
      else None
  }

  /** Python's `int(v)` on a decoded JSON value; `None` where it raises. */
  function IntOf(v: ArgValue): (n: Option<int>)
    ensures v.Int? ==> n == Some(v.i)
    ensures v.Null? || v.Compound? ==> n == None
    ensures v.Float? && v.r >= 0.0 ==> n.Some? && n.value as real <= v.r < n.value as real + 1.0
    ensures v.Float? && v.r < 0.0 ==> n.Some? && n.value as real - 1.0 < v.r <= n.value as real
  {
    match v
    case Str(s) => Numerals.ParseInt(s)
    case Int(i) => Some(i)
    case Float(r) => if r >= 0.0 then Some(r.Floor) else Some(-((-r).Floor))
    case Bool(b) => Some(if b then 1 else 0)
    case Null => None
    case Compound(_) => None
  }

  /** `d.get(key, default)`. */
  function Get(fields: map<string, ArgValue>, key: string, default: ArgValue): ArgValue {
    if key in fields then fields[key] else default
  }

  /** The `q`, `d_id` and `top_k` the agent passes to `search_document`. */
  function ResolveSearch(question: string, docId: string, args: JsonArgs): (r: Result<SearchRequest, Failure>)
    ensures !Truthy(args) ==> r == Ok(SearchRequest(Str(question), Str(docId), DefaultTopK))
    ensures Truthy(args) && args.NonObject? ==> r == Err(ArgumentsNotObject)
    ensures r.Err? ==> r.error == ArgumentsNotObject || r.error == TopKNotInteger
  {
    if !Truthy(args) then Ok(SearchRequest(Str(question), Str(docId), DefaultTopK))
    else match args
      case NonObject(_) => Err(ArgumentsNotObject)
      case Object(fields) =>
        var q := Get(fields, "query", Null);
        match IntOf(Get(fields, "top_k", Int(DefaultTopK)))
        case None => Err(TopKNotInteger)
        case Some(k) => Ok(SearchRequest(q, Get(fields, "doc_id", Str(docId)), k))
  }

  /** What one round produces from the model's response. */
  datatype Round =
    | Appended(msg: Message)  // a tool round: one tool message, then the next round
    | Skipped                 // neither a tool nor content: nothing changes
    | Final(answer: string)   // content without a tool request
    | Failed(failure: Failure)

  /** The body of one loop round, given the model's response. */
  function RoundOf(question: string, docId: string, search: SearchTool, resp: Option<Response>): (r: Round)
    ensures r.Appended? ==> r.msg.role == Tool
  {
    match resp
    case None => Failed(ModelCallFailed)
    case Some(msg) =>
      match Detect(msg)
      case Some(req) =>
        if req.name == SearchToolName then
          match ResolveSearch(question, docId, req.args)
          case Err(f) => Failed(f)
          case Ok(call) =>
            match search(call)
            case None => Failed(SearchFailed)
            case Some(results) => Appended(Message(Tool, Some(req.name), SearchResults(results)))
        else Appended(Message(Tool, Some(req.name), UnknownToolError))
      case None =>
        if msg.content.Some? && msg.content.value != "" then Final(msg.content.value) else Skipped
  }

  /** The loop state between rounds. */
  datatype State = Running(messages: seq<Message>) | Finished(outcome: Outcome)

  /** Round `round` of the loop, run on the messages so far. */
  function Step(env: Env, round: nat, st: State): (r: State)
    ensures st.Finished? ==> r == st
    ensures r.Running? ==> st.Running? && st.messages <= r.messages && |r.messages| <= |st.messages| + 1
    ensures st.Running? && r.Finished? && r.outcome.Answer? ==> r.outcome.messages == st.messages
    ensures st.Running? && r.Finished? ==> !r.outcome.NoFinalAnswer?
  {
    match st
    case Finished(_) => st
    case Running(m) =>
      match RoundOf(env.question, env.docId, env.search, env.llm(round, m))
      case Appended(msg) => Running(m + [msg])
      case Skipped => Running(m)
      case Final(c) => Finished(Answer(c, m))
      case Failed(f) => Finished(Raised(f))
  }

  /** The state after the first `k` rounds. */
  function After(env: Env, k: nat): State {
    if k == 0 then Running(Initial(env.question)) else Step(env, k - 1, After(env, k - 1))
  }

  /** The round the loop plays at round `r`, provided it is still running. */
  function RoundAt(env: Env, r: nat): Round
    requires After(env, r).Running?
  {
    RoundOf(env.question, env.docId, env.search, env.llm(r, After(env, r).messages))
  }

  /** What `agent_executor` returns after at most `MaxRounds` rounds. */
  function Run(env: Env): (o: Outcome)
    ensures o.NoFinalAnswer? ==>
      && Initial(env.question) <= o.messages
      && |o.messages| == 2 + ToolRounds(env, MaxRounds)
      && (forall i :: 2 <= i < |o.messages| ==> o.messages[i].role == Tool)
  {
    match After(env, MaxRounds)
    case Running(m) =>
      ConversationShape(env, MaxRounds);
      NoFinalAnswer(m)
    case Finished(o) =>
      FinishedNeverUnanswered(env, MaxRounds);
      o
  }

  /** The number of tool rounds among the first `k`. */
  function ToolRounds(env: Env, k: nat): nat {
    if k == 0 then 0
    else ToolRounds(env, k - 1) + (if After(env, k - 1).Running? && RoundAt(env, k - 1).Appended? then 1 else 0)
  }

  /**
   * `agent_executor(user_question, doc_id)`. `calls` counts the model calls
   * made.
   */
  method AgentExecutor(question: string, docId: string, llm: Model, search: SearchTool)
    returns (out: Outcome, ghost calls: nat)
    ensures out == Run(Env(question, docId, llm, search))
    ensures calls <= MaxRounds
    ensures out.NoFinalAnswer? ==> calls == MaxRounds
  {
    ghost var env := Env(question, docId, llm, search);
    var messages := [Message(System, None, PromptText), Message(User, None, Text(question))];
    calls := 0;
    for round := 0 to MaxRounds
      invariant After(env, round) == Running(messages)
      invariant calls == round
    {
      var resp := llm(round, messages);
      calls := calls + 1;
      var played := PlayRound(question, docId, search, resp);
      match played
      case Appended(msg) =>
        messages := messages + [msg];
      case Skipped =>
      case Final(c) =>
        FinishedIsFinal(env, round + 1, MaxRounds);
        return Answer(c, messages), calls;
      case Failed(f) =>
        FinishedIsFinal(env, round + 1, MaxRounds);
        return Raised(f), calls;
    }
    return NoFinalAnswer(messages), calls;
  }

  /**
   * One round of `agent_executor` after the model call: detect a tool
   * request and run it, or take the content as the answer.
   */
  method PlayRound(question: string, docId: string, search: SearchTool, resp: Option<Response>) returns (r: Round)
    ensures r == RoundOf(question, docId, search, resp)
  {
    if resp.None? {
      return Failed(ModelCallFailed);
    }
    var msg := resp.value;
    var request := Detect(msg);
    if request.Some? {
      var name := request.value.name;
      if name == SearchToolName {
        var call := ResolveSearch(question, docId, request.value.args);
        if call.Err? {
          return Failed(call.error);
        }
        var result := search(call.value);
        if result.None? {
          return Failed(SearchFailed);
        }
        return Appended(Message(Tool, Some(name), SearchResults(result.value)));
      } else {
        return Appended(Message(Tool, Some(name), UnknownToolError));
      }
    }
    if msg.content.Some? && msg.content.value != "" {
      return Final(msg.content.value);
    }
    return Skipped;
  }

  /** Once the loop has returned or raised, later rounds change nothing. */
  lemma {:induction false} FinishedIsFinal(env: Env, k: nat, j: nat)
    requires k <= j && After(env, k).Finished?
    ensures After(env, j) == After(env, k)
    decreases j - k
  {
    if k < j {
      FinishedIsFinal(env, k, j - 1);
    }
  }

  /**
   * While the loop runs, the messages are the system prompt and the
   * question followed by one tool message per tool round.
   */
  lemma {:induction false} ConversationShape(env: Env, k: nat)
    requires After(env, k).Running?
    ensures var m := After(env, k).messages;
      && |m| == 2 + ToolRounds(env, k)
      && m[..2] == Initial(env.question)
      && forall i :: 2 <= i < |m| ==> m[i].role == Tool
  {
    if k > 0 {
      var prev := After(env, k - 1);
      if prev.Finished? {
        assert false;
      }
      ConversationShape(env, k - 1);
      var m := After(env, k).messages;
      assert m[..|prev.messages|] == prev.messages;
    }
  }

  /** The messages at a later round extend those at an earlier one. */
  lemma {:induction false} MessagesOnlyGrow(env: Env, k: nat, j: nat)
    requires k <= j && After(env, j).Running?
    ensures After(env, k).Running?
    ensures After(env, k).messages <= After(env, j).messages
    decreases j - k
  {
    if k < j {
      if After(env, j - 1).Finished? {
        assert false;
      }
      MessagesOnlyGrow(env, k, j - 1);
    }
  }

  /** A response that ends the loop with answer `c`: no tool request, and non-empty content `c`. */
  predicate FinalResponse(resp: Option<Response>, c: string) {
    resp.Some? && Detect(resp.value).None? && resp.value.content == Some(c) && c != ""
  }

  /**
   * The result is the answer `c` exactly when some round within the limit
   * finds the loop still running with messages `m` and the model answers
   * with content `c` and no tool request; the messages returned are those
   * that round saw.
   */
  lemma AnswerIsFinalRound(env: Env, c: string, m: seq<Message>)
    ensures Run(env) == Answer(c, m) <==>
      exists r :: 0 <= r < MaxRounds && After(env, r) == Running(m) && FinalResponse(env.llm(r, m), c)
  {
    if Run(env) == Answer(c, m) {
      var r := AnsweringRound(env, c, m);
    }
    if r :| 0 <= r < MaxRounds && After(env, r) == Running(m) && FinalResponse(env.llm(r, m), c) {
      FinalRoundAnswers(env, c, m, r);
    }
  }

  /** An answer was given by a round that found the loop running with the answer's messages. */
  lemma AnsweringRound(env: Env, c: string, m: seq<Message>) returns (r: nat)
    requires Run(env) == Answer(c, m)
    ensures r < MaxRounds && After(env, r) == Running(m) && FinalResponse(env.llm(r, m), c)
  {
    FinishedNeverUnanswered(env, MaxRounds);
    assert After(env, MaxRounds) == Finished(Answer(c, m));
    r := FinishingRound(env, MaxRounds);
    assert RoundAt(env, r) == Final(c);
    RoundFinalExactly(env.question, env.docId, env.search, env.llm(r, m), c);
  }

  /** A running round whose response is final ends the call with that answer. */
  lemma FinalRoundAnswers(env: Env, c: string, m: seq<Message>, r: nat)
    requires r < MaxRounds && After(env, r) == Running(m) && FinalResponse(env.llm(r, m), c)
    ensures Run(env) == Answer(c, m)
  {
    RoundFinalExactly(env.question, env.docId, env.search, env.llm(r, m), c);
    assert After(env, r + 1) == Finished(Answer(c, m));
    FinishedIsFinal(env, r + 1, MaxRounds);
  }

  /** The loop only ever finishes by answering or raising. */
  lemma {:induction false} FinishedNeverUnanswered(env: Env, k: nat)
    ensures After(env, k).Finished? ==> !After(env, k).outcome.NoFinalAnswer?
  {
    if k > 0 {
      FinishedNeverUnanswered(env, k - 1);
    }
  }

  /** A finished state was reached by one round that found the loop running. */
  lemma {:induction false} FinishingRound(env: Env, k: nat) returns (r: nat)
    requires After(env, k).Finished?
    ensures r < k && After(env, r).Running? && After(env, r + 1) == After(env, k)
    ensures match RoundAt(env, r)
      case Final(c) => After(env, k).outcome == Answer(c, After(env, r).messages)
      case Failed(f) => After(env, k).outcome == Raised(f)
      case _ => false
  {
    if After(env, k - 1).Finished? {
      r := FinishingRound(env, k - 1);
    } else {
      r := k - 1;
    }
  }

  /**
   * A named `function_call` is detected with its arguments; so is a named
   * `tool_call` when there is no `function_call`.
   */
  lemma NamedCallIsDetected(resp: Response, n: string, a: Arguments)
    requires n != ""
    requires resp.functionCall == Some(ToolCall(Some(n), a))
      || (resp.functionCall.None? && resp.toolCall == Some(ToolCall(Some(n), a)))
    ensures Detect(resp) == Some(ToolRequest(n, ToolArgs(a)))
  {
  }

  /**
   * A call record with no name, or with the empty name, is no tool request:
   * `if tool_name:` is false and the round goes on to the content.
   */
  lemma UnnamedCallIsNotDetected(resp: Response)
    requires var fc := if resp.functionCall.Some? then resp.functionCall else resp.toolCall;
      fc.None? || fc.value.name.None? || fc.value.name == Some("")
    ensures Detect(resp).None?
  {
  }

  /** A round is final, with answer `c`, exactly when the response has no tool request and content `c` is non-empty. */
  lemma RoundFinalExactly(question: string, docId: string, search: SearchTool, resp: Option<Response>, c: string)
    ensures RoundOf(question, docId, search, resp) == Final(c) <==> FinalResponse(resp, c)
  {
  }

  /** A round whose response has neither a tool request nor content is skipped. */
  lemma RoundSkippedExactly(question: string, docId: string, search: SearchTool, resp: Option<Response>)
    ensures RoundOf(question, docId, search, resp) == Skipped <==>
      resp.Some? && Detect(resp.value).None? && (resp.value.content.None? || resp.value.content == Some(""))
  {
  }

  /**
   * A `search_document` request whose arguments resolve and whose search
   * succeeds appends one tool message, named after the tool, holding the
   * results; a failed resolution or search raises.
   */
  lemma SearchRoundAppendsResults(question: string, docId: string, search: SearchTool, resp: Response)
    requires Detect(resp).Some? && Detect(resp).value.name == SearchToolName
    ensures var call := ResolveSearch(question, docId, Detect(resp).value.args);
      && (call.Err? ==> RoundOf(question, docId, search, Some(resp)) == Failed(call.error))
      && (call.Ok? && search(call.value).None? ==> RoundOf(question, docId, search, Some(resp)) == Failed(SearchFailed))
      && (call.Ok? && search(call.value).Some? ==>
            RoundOf(question, docId, search, Some(resp)) == Appended(Message(Tool, Some(SearchToolName), SearchResults(search(call.value).value))))
  {
  }

  /** A failed model call raises. */
  lemma ModelFailureRaises(question: string, docId: string, search: SearchTool)
    ensures RoundOf(question, docId, search, None) == Failed(ModelCallFailed)
  {
  }

  /** A round that detects a tool request never returns the response's content. */
  lemma ToolRequestNeverAnswers(question: string, docId: string, search: SearchTool, resp: Response)
    requires Detect(resp).Some?
    ensures RoundOf(question, docId, search, Some(resp)).Appended? || RoundOf(question, docId, search, Some(resp)).Failed?
    ensures Detect(resp).value.name != SearchToolName ==>
      RoundOf(question, docId, search, Some(resp)) == Appended(Message(Tool, Some(Detect(resp).value.name), UnknownToolError))
  {
  }

  /**
   * Rounds whose response has neither a tool request nor content are used
   * up without changing the messages.
   */
  lemma {:induction false} SilentRoundsKeepMessages(env: Env, k: nat, j: nat)
    requires k <= j && After(env, k).Running?
    requires forall r: nat :: k <= r < j ==> var resp := env.llm(r, After(env, k).messages);
      resp.Some? && Detect(resp.value).None? && (resp.value.content.None? || resp.value.content == Some(""))
    ensures After(env, j) == After(env, k)
    decreases j - k
  {
    if k < j {
      SilentRoundsKeepMessages(env, k, j - 1);
    }
  }

  /**
   * A model that asks for an unknown tool in every round exhausts the
   * rounds: four error messages follow the prompt and the question.
   */
  lemma AlwaysUnknownToolHitsLimit(env: Env)
    requires forall r: nat, m: seq<Message> :: var resp := env.llm(r, m);
      resp.Some? && Detect(resp.value).Some? && Detect(resp.value).value.name != SearchToolName
    ensures Run(env).NoFinalAnswer? && |Run(env).messages| == 2 + MaxRounds
  {
    ToolRoundsCount(env, MaxRounds);
    ConversationShape(env, MaxRounds);
  }

  lemma {:induction false} ToolRoundsCount(env: Env, k: nat)
    requires forall r: nat, m: seq<Message> :: var resp := env.llm(r, m);
      resp.Some? && Detect(resp.value).Some? && Detect(resp.value).value.name != SearchToolName
    ensures After(env, k).Running? && ToolRounds(env, k) == k
  {
    if k > 0 {
      ToolRoundsCount(env, k - 1);
      var resp := env.llm(k - 1, After(env, k - 1).messages);
      ToolRequestNeverAnswers(env.question, env.docId, env.search, resp.value);
    }
  }

  /** `function_call` wins whenever it is present, even when it names no tool. */
  lemma DetectionPrefersFunctionCall(resp: Response)
    requires resp.functionCall.Some?
    ensures Detect(resp) == Detect(resp.(toolCall := None))
    ensures resp.functionCall.value.name.None? ==> Detect(resp) == None
  {
  }

  /** The plural `tool_calls` list has no effect on detection. */
  lemma DetectionIgnoresToolCalls(resp: Response, calls: seq<ToolCall>)
    ensures Detect(resp) == Detect(resp.(toolCalls := calls))
  {
  }

  /** Arguments that are empty, absent or not valid JSON fall back to the question, `doc_id` and 3. */
  lemma SearchDefaults(question: string, docId: string, a: Arguments)
    requires a.Absent? || a == Encoded(None) || a == Encoded(Some(Object(map[])))
    ensures ResolveSearch(question, docId, ToolArgs(a)) == Ok(SearchRequest(Str(question), Str(docId), DefaultTopK))
  {
  }

  /**
   * Non-empty arguments are read key by key: a missing `query` is passed as
   * `None`, not replaced by the question; a missing `doc_id` or `top_k`
   * takes the caller's document and 3; a `top_k` that `int` rejects raises.
   */
  lemma MissingKeysInObject(question: string, docId: string, fields: map<string, ArgValue>)
    requires fields != map[]
    ensures var r := ResolveSearch(question, docId, Object(fields));
      var k := IntOf(Get(fields, "top_k", Int(DefaultTopK)));
      && (k.None? ==> r == Err(TopKNotInteger))
      && (k.Some? ==> r == Ok(SearchRequest(Get(fields, "query", Null), Get(fields, "doc_id", Str(docId)), k.value)))
    ensures "top_k" !in fields ==> var r := ResolveSearch(question, docId, Object(fields));
      && r.Ok?
      && r.value.query == (if "query" in fields then fields["query"] else Null)
      && r.value.docId == (if "doc_id" in fields then fields["doc_id"] else Str(docId))
      && r.value.topK == DefaultTopK
  {
  }

  /**
   * A `search_document` call whose arguments are a JSON-encoded object
   * searches with that object's `query`, `doc_id` and `top_k` and appends
   * the results; a `top_k` that `int` rejects or a failed search raises.
   */
  lemma SearchCallUsesItsArguments(question: string, docId: string, search: SearchTool, resp: Response, fields: map<string, ArgValue>)
    requires fields != map[]
    requires resp.functionCall == Some(ToolCall(Some(SearchToolName), Encoded(Some(Object(fields)))))
      || (resp.functionCall.None? && resp.toolCall == Some(ToolCall(Some(SearchToolName), Encoded(Some(Object(fields))))))
    ensures var k := IntOf(Get(fields, "top_k", Int(DefaultTopK)));
      var req := SearchRequest(Get(fields, "query", Null), Get(fields, "doc_id", Str(docId)), if k.Some? then k.value else 0);
      && (k.None? ==> RoundOf(question, docId, search, Some(resp)) == Failed(TopKNotInteger))
      && (k.Some? && search(req).None? ==> RoundOf(question, docId, search, Some(resp)) == Failed(SearchFailed))
      && (k.Some? && search(req).Some? ==>
            RoundOf(question, docId, search, Some(resp)) == Appended(Message(Tool, Some(SearchToolName), SearchResults(search(req).value))))
  {
    NamedCallIsDetected(resp, SearchToolName, Encoded(Some(Object(fields))));
  }

  /**
   * The request `test_agent.py`'s scripted model encodes, with a string
   * `query`, a string `doc_id` and an integer `top_k`, is searched as given.
   */
  lemma FullArgumentsSearchedAsGiven(question: string, docId: string, q: string, d: string, k: int)
    ensures ResolveSearch(question, docId, Object(map["query" := Str(q), "doc_id" := Str(d), "top_k" := Int(k)]))
      == Ok(SearchRequest(Str(q), Str(d), k))
  {
    var fields := map["query" := Str(q), "doc_id" := Str(d), "top_k" := Int(k)];
    assert "query" in fields && "top_k" in fields;
  }

  /** A `top_k` given as the decimal text of `n` searches for `n` results. */
  lemma TopKFromDecimalString(question: string, docId: string, fields: map<string, ArgValue>, n: nat)
    requires "top_k" in fields && fields["top_k"] == Str(Numerals.Decimal(n))
    ensures ResolveSearch(question, docId, Object(fields)).Ok?
    ensures ResolveSearch(question, docId, Object(fields)).value.topK == n
  {
    Numerals.ParseIntDecimal(n);
  }

  /** A `top_k` that is not a number ends the call with an exception. */
  lemma TopKNotNumberRaises(question: string, docId: string, fields: map<string, ArgValue>)
    requires "top_k" in fields && (fields["top_k"].Null? || fields["top_k"] == Str(""))
    ensures ResolveSearch(question, docId, Object(fields)) == Err(TopKNotInteger)
  {
    assert Strings.Strip("") == "";
  }

  /** Whether a tool message is among `m` (`any(m.get("role") == "tool" ...)`). */
  predicate HasToolOutput(m: seq<Message>) {
    exists i :: 0 <= i < |m| && m[i].role == Tool
  }

  /**
   * The texts of the first tool message's results; `None` when that message
   * is not a result list (the mock's `r["text"]` then raises).
   */
  function FirstToolTexts(m: seq<Message>): (ts: Option<seq<string>>)
    ensures ts.Some? ==> HasToolOutput(m)
  {
    if m == [] then None
    else if m[0].role == Tool then
      match m[0].content
      case SearchResults(rs) => Some(seq(|rs|, i requires 0 <= i < |rs| => rs[i].text))
      case _ => None
    else
      var rest := FirstToolTexts(m[1..]);
      assert rest.Some? ==> HasToolOutput(m) by {
        if rest.Some? {
          var i :| 0 <= i < |m[1..]| && m[1..][i].role == Tool;
          assert m[i + 1].role == Tool;
        }
      }
      rest
  }

  /**
   * The scripted model of test_agent.py: until a tool message exists it
   * asks for `search_document` through the plural `tool_calls` list, with
   * the last message's text as the query; then it answers with the joined
   * passage texts of the first tool message, and raises when that message
   * holds no result list.
   */
  function MockResponse(m: seq<Message>): (r: Option<Response>)
    ensures !HasToolOutput(m) ==> r.Some? && |r.value.toolCalls| == 1 && r.value.content.None?
    ensures r.Some? ==> r.value.functionCall.None? && r.value.toolCall.None?
  {
    if !HasToolOutput(m) then
      var query := if m != [] && m[|m| - 1].content.Text? then m[|m| - 1].content.text else "";
      var args := map["query" := Str(query), "doc_id" := Str("sample"), "top_k" := Int(2)];
      Some(Response(None, None, [ToolCall(Some(SearchToolName), Encoded(Some(Object(args))))], None))
    else
      match FirstToolTexts(m)
      case None => None
      case Some(texts) => Some(Response(None, None, [], Some("Answer (grounded): " + Strings.Join(texts, " "))))
  }

  /** The mock as a model: it ignores the round number. */
  const TestAgentMock: Model := (round: nat, m: seq<Message>) => MockResponse(m)

  /** On the starting messages the mock's request goes undetected and it says nothing. */
  lemma MockSilentAtStart(question: string)
    ensures MockResponse(Initial(question)).Some?
    ensures Detect(MockResponse(Initial(question)).value).None?
    ensures MockResponse(Initial(question)).value.content.None?
  {
    var m := Initial(question);
    assert !HasToolOutput(m) by {
      assert m[0].role == System && m[1].role == User;
    }
  }

  /** A model that stays silent on the starting messages leaves them unchanged round after round. */
  lemma {:induction false} SilentModelKeepsStart(env: Env, k: nat)
    requires forall r: nat :: var resp := env.llm(r, Initial(env.question));
      resp.Some? && Detect(resp.value).None? && resp.value.content.None?
    ensures After(env, k) == Running(Initial(env.question))
  {
    if k > 0 {
      SilentModelKeepsStart(env, k - 1);
    }
  }

  /**
   * With the scripted model of test_agent.py the agent never detects a
   * tool request, so no tool message is ever added, the scripted answer is
   * never produced, and the rounds run out on the two starting messages.
   */
  lemma TestAgentMockGetsNoAnswer(question: string, docId: string, search: SearchTool)
    ensures Run(Env(question, docId, TestAgentMock, search)) == NoFinalAnswer(Initial(question))
  {
    var env := Env(question, docId, TestAgentMock, search);
    MockSilentAtStart(question);
    SilentModelKeepsStart(env, MaxRounds);
  }
}

=== FILE: chunker.dfy ===
/**
 * The paragraph and sliding-window splitter that turns a document into the
 * passages that get embedded and stored (`_chunk_text`).
 *
 * The text is split on blank lines, each paragraph is stripped and empty
 * ones are dropped. A paragraph of at most `maxChars` characters is one
 * chunk; a longer one is cut into windows of `maxChars` characters whose
 * starts advance by `maxChars - overlap`, each window stripped in turn.
 */
module Chunker {
  import opened Wrappers
  import opened Strings

  /** The defaults the ingestion path uses. */
  const MaxChars: int := 1000
  const Overlap: int := 200

  const ParagraphBreak: string := "\n\n"

  /** A configuration under which the window loop advances. */
  predicate Advances(maxChars: int, overlap: int) {
    0 < maxChars && overlap < maxChars
  }

  /** The stripped, non-empty pieces, in order. */
  function StrippedPieces(pieces: seq<string>): (ps: seq<string>)
    ensures |ps| <= |pieces|
    ensures forall i :: 0 <= i < |ps| ==> ps[i] != [] && Strip(ps[i]) == ps[i]
    decreases |pieces|
  {
    if pieces == [] then []
    else
      var p := Strip(pieces[0]);
      StripIdempotent(pieces[0]);
      (if p != [] then [p] else []) + StrippedPieces(pieces[1..])
  }

  /** The pieces of two stretches are those of the first followed by those of the second. */
  lemma {:induction false} StrippedPiecesAppend(a: seq<string>, b: seq<string>)
    ensures StrippedPieces(a + b) == StrippedPieces(a) + StrippedPieces(b)
    decreases |a|
  {
    if a == [] {
      assert a + b == b;
    } else {
      assert (a + b)[1..] == a[1..] + b;
      StrippedPiecesAppend(a[1..], b);
    }
  }

  /** One piece gives its stripped text when that is not empty, and nothing otherwise. */
  lemma StrippedPiecesOfPiece(p: string)
    ensures StrippedPieces([p]) == if Strip(p) != [] then [Strip(p)] else []
  {
  }

  /** The kept paragraphs are exactly the non-empty strips of the pieces. */
  lemma {:induction false} StrippedPiecesMembers(pieces: seq<string>)
    ensures forall x :: x in StrippedPieces(pieces) <==>
      x != [] && exists j :: 0 <= j < |pieces| && x == Strip(pieces[j])
    decreases |pieces|
  {
    if pieces != [] {
      StrippedPiecesMembers(pieces[1..]);
      forall x | x != [] && (exists j :: 0 <= j < |pieces| && x == Strip(pieces[j]))
        ensures x in StrippedPieces(pieces)
      {
        var j :| 0 <= j < |pieces| && x == Strip(pieces[j]);
        if j > 0 {
          assert pieces[1..][j - 1] == pieces[j];
        }
      }
      forall x | x in StrippedPieces(pieces)
        ensures exists j :: 0 <= j < |pieces| && x == Strip(pieces[j])
      {
        if x != Strip(pieces[0]) {
          var j :| 0 <= j < |pieces[1..]| && x == Strip(pieces[1..][j]);
          assert pieces[j + 1] == pieces[1..][j];
        }
      }
    }
  }

  /** The paragraphs of a text: its blank-line-separated pieces, stripped, empty ones dropped. */
  function Paragraphs(text: string): (ps: seq<string>)
    ensures forall i :: 0 <= i < |ps| ==> ps[i] != [] && Strip(ps[i]) == ps[i]
  {
    StrippedPieces(Split(text, ParagraphBreak))
  }

  /** The window starting at `start`, cut at the end of `p` and stripped. */
  function Window(p: string, start: nat, maxChars: int): (w: string)
    requires start < |p| && 0 < maxChars
    ensures |w| <= maxChars
  {
    Strip(p[start..Min(start + maxChars, |p|)])
  }

  /**
   * The window starts the loop visits in a paragraph of length `n`, from
   * `start` on: it stops after a window whose end reaches `n`, or when the
   * next start is past the end.
   */
  function WindowStarts(n: nat, start: nat, maxChars: int, overlap: int): (ss: seq<nat>)
    requires Advances(maxChars, overlap)
    ensures start < n <==> ss != []
    ensures ss != [] ==> ss[0] == start
    ensures forall i :: 0 <= i < |ss| ==> start <= ss[i] < n
    ensures forall i :: 0 <= i < |ss| - 1 ==> ss[i + 1] == ss[i] + (maxChars - overlap)
    ensures 0 <= overlap && ss != [] ==> ss[|ss| - 1] + maxChars >= n
    decreases n - start
  {
    if start >= n then []
    else if start + maxChars >= n then [start]
    else [start] + WindowStarts(n, start + maxChars - overlap, maxChars, overlap)
  }

  /** The stripped windows of `p` from `start` on. */
  function WindowsFrom(p: string, start: nat, maxChars: int, overlap: int): (ws: seq<string>)
    requires Advances(maxChars, overlap)
    ensures forall i :: 0 <= i < |ws| ==> |ws[i]| <= maxChars
    decreases |p| - start
  {
    if start >= |p| then []
    else if start + maxChars >= |p| then [Window(p, start, maxChars)]
    else [Window(p, start, maxChars)] + WindowsFrom(p, start + maxChars - overlap, maxChars, overlap)
  }

  /** The chunks of one paragraph: itself when it fits, its windows otherwise. */
  function ParagraphChunks(p: string, maxChars: int, overlap: int): (cs: seq<string>)
    requires Advances(maxChars, overlap)
    ensures forall i :: 0 <= i < |cs| ==> |cs[i]| <= maxChars
  {
    if |p| <= maxChars then [p] else WindowsFrom(p, 0, maxChars, overlap)
  }

  /** The chunks of a list of paragraphs, paragraph after paragraph. */
  function ChunkAll(ps: seq<string>, maxChars: int, overlap: int): (cs: seq<string>)
    requires Advances(maxChars, overlap)
    ensures forall i :: 0 <= i < |cs| ==> |cs[i]| <= maxChars
    decreases |ps|
  {
    if ps == [] then []
    else ChunkAll(ps[..|ps| - 1], maxChars, overlap) + ParagraphChunks(ps[|ps| - 1], maxChars, overlap)
  }

  /** What `_chunk_text(text, maxChars, overlap)` returns. */
  function Chunks(text: string, maxChars: int, overlap: int): (cs: seq<string>)
    requires Advances(maxChars, overlap)
    ensures forall i :: 0 <= i < |cs| ==> |cs[i]| <= maxChars
  {
    ChunkAll(Paragraphs(text), maxChars, overlap)
  }

  /** Non-empty paragraphs give at least one chunk: the chunks are empty exactly when there are no paragraphs. */
  lemma ChunkAllEmpty(ps: seq<string>, maxChars: int, overlap: int)
    requires Advances(maxChars, overlap)
    requires forall i :: 0 <= i < |ps| ==> ps[i] != []
    ensures ChunkAll(ps, maxChars, overlap) == [] <==> ps == []
  {
    if ps != [] {
      var p := ps[|ps| - 1];
      if |p| > maxChars {
        WindowsFromStep(p, 0, maxChars, overlap);
      }
      assert ParagraphChunks(p, maxChars, overlap) != [];
    }
  }

  /** The chunks of a list of pieces are empty exactly when every piece is blank. */
  lemma PiecesChunksEmpty(pieces: seq<string>, maxChars: int, overlap: int)
    requires Advances(maxChars, overlap)
    ensures ChunkAll(StrippedPieces(pieces), maxChars, overlap) == [] <==>
      forall j :: 0 <= j < |pieces| ==> Strip(pieces[j]) == []
  {
    var ps := StrippedPieces(pieces);
    ChunkAllEmpty(ps, maxChars, overlap);
    StrippedPiecesMembers(pieces);
    if ps != [] {
      assert ps[0] in ps;
    }
    if j :| 0 <= j < |pieces| && Strip(pieces[j]) != [] {
      assert Strip(pieces[j]) in ps;
    }
  }

  /** `_chunk_text` returns no chunk exactly when every blank-line-separated piece of the text is blank. */
  lemma ChunksEmptyExactly(text: string, maxChars: int, overlap: int)
    requires Advances(maxChars, overlap)
    ensures Chunks(text, maxChars, overlap) == [] ==>
      forall j :: 0 <= j < |Split(text, ParagraphBreak)| ==> Strip(Split(text, ParagraphBreak)[j]) == []
    ensures (forall j :: 0 <= j < |Split(text, ParagraphBreak)| ==> Strip(Split(text, ParagraphBreak)[j]) == []) ==>
      Chunks(text, maxChars, overlap) == []
  {
    var pieces := Split(text, ParagraphBreak);
    PiecesChunksEmpty(pieces, maxChars, overlap);
    assert Chunks(text, maxChars, overlap) == ChunkAll(StrippedPieces(pieces), maxChars, overlap);
  }

  /** `_chunk_text`: a loop over the paragraphs; long ones go through the window loop. */
  method ChunkText(text: string, maxChars: int, overlap: int) returns (chunks: seq<string>)
    requires Advances(maxChars, overlap)
    ensures chunks == Chunks(text, maxChars, overlap)
  {
    var paragraphs := Paragraphs(text);
    chunks := [];
    for k := 0 to |paragraphs|
      invariant chunks == ChunkAll(paragraphs[..k], maxChars, overlap)
    {
      var p := paragraphs[k];
      ChunkAllStep(paragraphs, k, maxChars, overlap);
      if |p| <= maxChars {
        chunks := chunks + [p];
        continue;
      }
      chunks := AppendWindows(chunks, p, maxChars, overlap);
    }
    assert paragraphs[..|paragraphs|] == paragraphs;
  }

  /**
   * The sliding-window loop of `_chunk_text`: appends the stripped windows
   * of `p` to `chunks`, stopping after the window that reaches the end.
   */
  method AppendWindows(chunks: seq<string>, p: string, maxChars: int, overlap: int) returns (out: seq<string>)
    requires Advances(maxChars, overlap)
    ensures out == chunks + WindowsFrom(p, 0, maxChars, overlap)
  {
    out := chunks;
    ghost var goal := chunks + WindowsFrom(p, 0, maxChars, overlap);
    var start: nat := 0;
    while start < |p|
      invariant goal == out + WindowsFrom(p, start, maxChars, overlap)
      decreases |p| - start
    {
      var end := start + maxChars;
      ghost var before := out;
      out := out + [Window(p, start, maxChars)];
      if end >= |p| {
        LastWindowStep(goal, before, p, start, maxChars, overlap);
        break;
      }
      var next: nat := end - overlap;
      NextWindowStep(goal, before, p, start, next, maxChars, overlap);
      start := next;
    }
  }

  /** The window loop's invariant survives one turn: the last window, or one with more to come. */
  lemma LastWindowStep(goal: seq<string>, out: seq<string>, p: string, start: nat, maxChars: int, overlap: int)
    requires Advances(maxChars, overlap) && start < |p| && start + maxChars >= |p|
    requires goal == out + WindowsFrom(p, start, maxChars, overlap)
    ensures goal == out + [Window(p, start, maxChars)]
  {
    WindowsFromStep(p, start, maxChars, overlap);
  }

  lemma NextWindowStep(goal: seq<string>, out: seq<string>, p: string, start: nat, next: nat, maxChars: int, overlap: int)
    requires Advances(maxChars, overlap) && start + maxChars < |p| && next == start + maxChars - overlap
    requires goal == out + WindowsFrom(p, start, maxChars, overlap)
    ensures goal == (out + [Window(p, start, maxChars)]) + WindowsFrom(p, next, maxChars, overlap)
  {
    var w := [Window(p, start, maxChars)];
    var rest := WindowsFrom(p, next, maxChars, overlap);
    assert WindowsFrom(p, start, maxChars, overlap) == w + rest;
    assert out + (w + rest) == (out + w) + rest;
  }

  /** One turn of the paragraph loop: the chunks of paragraph `k` follow those before it. */
  lemma ChunkAllStep(ps: seq<string>, k: nat, maxChars: int, overlap: int)
    requires Advances(maxChars, overlap) && k < |ps|
    ensures ChunkAll(ps[..k + 1], maxChars, overlap) ==
      ChunkAll(ps[..k], maxChars, overlap) + ParagraphChunks(ps[k], maxChars, overlap)
  {
    assert ps[..k + 1][..k] == ps[..k];
  }

  /** One turn of the window loop: the window at `start`, then the windows after it. */
  lemma WindowsFromStep(p: string, start: nat, maxChars: int, overlap: int)
    requires Advances(maxChars, overlap) && start < |p|
    ensures WindowsFrom(p, start, maxChars, overlap) ==
      if start + maxChars >= |p| then [Window(p, start, maxChars)]
      else [Window(p, start, maxChars)] + WindowsFrom(p, start + maxChars - overlap, maxChars, overlap)
  {
  }

  /** Windows and window starts line up: the i-th window starts at the i-th start. */
  lemma {:induction false} WindowsAtStarts(p: string, start: nat, maxChars: int, overlap: int)
    requires Advances(maxChars, overlap)
    ensures |WindowsFrom(p, start, maxChars, overlap)| == |WindowStarts(|p|, start, maxChars, overlap)|
    ensures forall i :: 0 <= i < |WindowsFrom(p, start, maxChars, overlap)| ==> WindowsFrom(p, start, maxChars, overlap)[i] == Window(p, WindowStarts(|p|, start, maxChars, overlap)[i], maxChars)
    decreases |p| - start
  {
    if start < |p| && start + maxChars < |p| {
      WindowsAtStarts(p, start + maxChars - overlap, maxChars, overlap);
    }
  }

  /** The window starting at `start` contains index `k`. */
  predicate Covers(start: int, maxChars: int, k: int) {
    start <= k < start + maxChars
  }

  /**
   * With a non-negative overlap the windows leave no gap: every index of
   * the paragraph from `start` on lies inside some window.
   */
  lemma {:induction false} WindowsCover(n: nat, start: nat, maxChars: int, overlap: int, k: nat)
    requires Advances(maxChars, overlap) && 0 <= overlap
    requires start <= k < n
    ensures exists i :: 0 <= i < |WindowStarts(n, start, maxChars, overlap)| && Covers(WindowStarts(n, start, maxChars, overlap)[i], maxChars, k)
    decreases n - start
  {
    var ss := WindowStarts(n, start, maxChars, overlap);
    if k < start + maxChars {
      assert Covers(ss[0], maxChars, k);
    } else {
      var next := start + maxChars - overlap;
      WindowsCover(n, next, maxChars, overlap, k);
      var rest := WindowStarts(n, next, maxChars, overlap);
      assert ss == [start] + rest;
      var i :| 0 <= i < |rest| && Covers(rest[i], maxChars, k);
      assert ss[i + 1] == rest[i];
    }
  }

  /** When every paragraph fits, the chunks are exactly the paragraphs. */
  lemma {:induction false} ShortParagraphsKeptWhole(ps: seq<string>, maxChars: int, overlap: int)
    requires Advances(maxChars, overlap)
    requires forall i :: 0 <= i < |ps| ==> |ps[i]| <= maxChars
    ensures ChunkAll(ps, maxChars, overlap) == ps
    decreases |ps|
  {
    if ps != [] {
      ShortParagraphsKeptWhole(ps[..|ps| - 1], maxChars, overlap);
      assert ps == ps[..|ps| - 1] + [ps[|ps| - 1]];
    }
  }

  /** The `start` the loop reaches after `k` iterations, whatever the configuration. */
  function StartAfter(k: nat, maxChars: int, overlap: int): int
  {
    if k == 0 then 0 else StartAfter(k - 1, maxChars, overlap) + maxChars - overlap
  }

  /**
   * With `overlap >= maxChars` the window loop of a paragraph longer than
   * `maxChars` never leaves: after any number of iterations `start` is
   * still before the end and the window still ends short of it.
   */
  lemma {:induction false} NoProgressWithoutAdvance(n: nat, maxChars: int, overlap: int, k: nat)
    requires 0 < maxChars < n && maxChars <= overlap
    ensures StartAfter(k, maxChars, overlap) <= 0
    ensures StartAfter(k, maxChars, overlap) < n && StartAfter(k, maxChars, overlap) + maxChars < n
  {
    if k > 0 {
      NoProgressWithoutAdvance(n, maxChars, overlap, k - 1);
    }
  }

  /**
   * Window chunks are stripped after cutting, so a window lying wholly in a
   * run of blanks inside a paragraph yields an empty chunk.
   */
  lemma BlankWindowGivesEmptyChunk()
    ensures ParagraphChunks("a   b", 2, 0) == ["a", "", "b"]
  {
    var p := "a   b";
    FirstSampleWindow();
    BlankSampleWindow();
    LastSampleWindow();
    assert WindowsFrom(p, 4, 2, 0) == ["b"];
    assert WindowsFrom(p, 2, 2, 0) == ["", "b"];
  }

  /** The three windows of the sample paragraph, one lemma each. */
  lemma FirstSampleWindow()
    ensures Window("a   b", 0, 2) == "a"
  {
    var q := "a   b"[0..2];
    assert q == "a ";
    assert SkipSpaces(q, 0) == 0;
    assert DropSpaces(q, 2) == 1;
  }

  lemma BlankSampleWindow()
    ensures Window("a   b", 2, 2) == ""
  {
    assert "a   b"[2..4] == "  ";
  }

  lemma LastSampleWindow()
    ensures Window("a   b", 4, 2) == "b"
  {
    var q := "a   b"[4..5];
    assert q == "b";
    assert SkipSpaces(q, 0) == 0;
    assert DropSpaces(q, 1) == 1;
  }
}

=== FILE: numerals.dfy ===
/**
 * Decimal numerals: the `str(i)` rendering used in chunk ids and the
 * `int(s)` conversion applied to a `top_k` argument given as text.
 */
module Numerals {
  import opened Wrappers
  import Strings

  predicate IsDigit(c: char) { '0' <= c <= '9' }

  predicate AllDigits(s: string) { forall i :: 0 <= i < |s| ==> IsDigit(s[i]) }

  function DigitChar(d: nat): (c: char)
    requires d < 10
    ensures IsDigit(c) && c as int - '0' as int == d
  {
    "0123456789"[d]
  }

  /** Python's `str(n)` for a non-negative integer. */
  function Decimal(n: nat): (s: string)
    ensures s != [] && AllDigits(s)
    ensures n < 10 <==> |s| == 1
    ensures s[0] == '0' ==> n == 0
  {
    if n < 10 then [DigitChar(n)] else Decimal(n / 10) + [DigitChar(n % 10)]
  }

  /** The value of a non-empty run of ASCII digits, most significant first. */
  function DigitsValue(s: string): nat
    requires AllDigits(s)
  {
    if s == [] then 0 else DigitsValue(s[..|s| - 1]) * 10 + (s[|s| - 1] as int - '0' as int)
  }

  /** Reading back the decimal rendering of `n` gives `n`. */
  lemma {:induction false} DigitsValueDecimal(n: nat)
    ensures DigitsValue(Decimal(n)) == n
  {
    if n >= 10 {
      DigitsValueDecimal(n / 10);
      var s := Decimal(n);
      assert s[..|s| - 1] == Decimal(n / 10);
    }
  }

  /** Distinct numbers have distinct renderings. */
  lemma DecimalInjective(a: nat, b: nat)
    ensures Decimal(a) == Decimal(b) ==> a == b
  {
    DigitsValueDecimal(a);
    DigitsValueDecimal(b);
  }

  /**
   * Python's `int(s)` on a string: surrounding whitespace is ignored, then
   * an optional sign and one or more ASCII digits; anything else raises
   * (modelled as None).
   */
  function ParseInt(s: string): (r: Option<int>)
    ensures r.Some? ==> Strings.Strip(s) != [] && AllDigits(Strings.Strip(s)[1..])
  {
    ParseSigned(Strings.Strip(s))
  }

  /** An optional sign followed by one or more ASCII digits, and nothing else. */
  function ParseSigned(t: string): (r: Option<int>)
    ensures r.Some? ==> t != []
    ensures r.Some? && t[0] != '-' ==> r.value >= 0
    ensures r.Some? ==> IsDigit(t[0]) || ((t[0] == '+' || t[0] == '-') && |t| >= 2)
  {
    if t == [] then None
    else
      var digits := if t[0] == '-' || t[0] == '+' then t[1..] else t;
      if digits == [] || !AllDigits(digits) then None
      else
        var v: int := DigitsValue(digits);
        Some(if t[0] == '-' then -v else v)
  }

  /** A numeral has no whitespace to strip, so `int` reads it as it stands. */
  lemma StripNumeral(d: string)
    requires d != [] && AllDigits(d[1..]) && IsDigit(d[|d| - 1]) && !Strings.IsSpace(d[0])
    ensures Strings.Strip(d) == d
    ensures ParseInt(d) == ParseSigned(d)
  {
    assert Strings.SkipSpaces(d, 0) == 0;
    assert Strings.DropSpaces(d, |d|) == |d|;
    ParseIntOfStripped(d);
  }

  /** `int` ignores surrounding whitespace: `int(" 3 ") == int("3")`. */
  lemma ParseIntIgnoresSpaces(s: string)
    ensures ParseInt(s) == ParseInt(Strings.Strip(s))
  {
    Strings.StripIdempotent(s);
  }

  /** Digits, with or without a sign, read as their value, negated after a minus. */
  lemma ParseSignedOfDigits(d: string)
    requires d != [] && AllDigits(d)
    ensures ParseSigned(d) == Some(DigitsValue(d) as int)
    ensures ParseSigned("+" + d) == Some(DigitsValue(d) as int)
    ensures ParseSigned("-" + d) == Some(-(DigitsValue(d) as int))
  {
    assert ("+" + d)[1..] == d;
    assert ("-" + d)[1..] == d;
  }

  lemma ParseIntOfStripped(s: string)
    requires Strings.Strip(s) == s
    ensures ParseInt(s) == ParseSigned(s)
  {
  }

  /** `int(str(n)) == n`. */
  lemma ParseIntDecimal(n: nat)
    ensures ParseInt(Decimal(n)) == Some(n)
  {
    var d := Decimal(n);
    assert ParseSigned(d) == Some(n) by {
      DigitsValueDecimal(n);
      assert d[0] != '-' && d[0] != '+';
    }
    StripNumeral(d);
  }

  /** `int("-" + digits)` is the negated value of the digits. */
  lemma ParseIntNegative(d: string)
    requires d != [] && AllDigits(d)
    ensures ParseInt("-" + d) == Some(-(DigitsValue(d) as int))
  {
    var m := "-" + d;
    assert m[0] == '-' && m[1..] == d;
    assert m[|m| - 1] == d[|d| - 1];
    StripNumeral(m);
  }
}

=== FILE: ranking.dfy ===
/*
 * The ranking part of `search_document` (agent.py): score every fetched row
 * whose embedding parses, sort by descending score and keep the first
 * `max(0, top_k)`. Cosine similarity is a function parameter.
 */
module Ranking {
  import opened Wrappers
  import opened Store

  /** The dictionary `{"chunk_id": ..., "text": ..., "score": ...}`. */
  datatype Candidate = Candidate(chunkId: string, text: string, score: real)

  /** The similarity of the query vector and a row's vector. */
  type Scorer = (Vector, Vector) -> real

  /** The candidate a parsed row yields. */
  function CandidateOf(r: Row, query: Vector, score: Scorer): Candidate
    requires r.embedding.Json?
  {
    Candidate(r.chunkId, r.text, score(query, r.embedding.vector))
  }

  /** The number of rows whose stored embedding parses. */
  function ParsedCount(rows: seq<Row>): (n: nat)
    ensures n <= |rows|
  {
    if rows == [] then 0
    else ParsedCount(rows[..|rows| - 1]) + (if rows[|rows| - 1].embedding.Json? then 1 else 0)
  }

  /** The candidates loop: one candidate per row whose embedding parses, in row order. */
  function Candidates(fetched: seq<Row>, query: Vector, score: Scorer): (cs: seq<Candidate>)
    ensures |cs| == ParsedCount(fetched)
    ensures forall r :: r in fetched && r.embedding.Json? ==> CandidateOf(r, query, score) in cs
    ensures forall c :: c in cs ==> exists r :: r in fetched && r.embedding.Json? && c == CandidateOf(r, query, score)
  {
    if fetched == [] then []
    else
      var last := fetched[|fetched| - 1];
      var before := Candidates(fetched[..|fetched| - 1], query, score);
      assert fetched == fetched[..|fetched| - 1] + [last];
      if last.embedding.Malformed? then before else before + [CandidateOf(last, query, score)]
  }

  /** The candidates of two stretches of rows are those of the first followed by those of the second. */
  lemma {:induction false} CandidatesAppend(a: seq<Row>, b: seq<Row>, query: Vector, score: Scorer)
    ensures Candidates(a + b, query, score) == Candidates(a, query, score) + Candidates(b, query, score)
    decreases |b|
  {
    if b == [] {
      assert a + b == a;
    } else {
      var n := |b| - 1;
      assert (a + b)[..|a + b| - 1] == a + b[..n];
      CandidatesAppend(a, b[..n], query, score);
    }
  }

  /** One row gives its candidate when its embedding parses, and nothing otherwise. */
  lemma CandidatesOfRow(r: Row, query: Vector, score: Scorer)
    ensures Candidates([r], query, score) == if r.embedding.Json? then [CandidateOf(r, query, score)] else []
  {
    assert [r][..0] == [];
  }

  /**
   * `search_document` returns `min(max(0, top_k), n)` results, where `n`
   * counts the fetched rows whose embedding parses.
   */
  lemma SearchResultLength(fetched: seq<Row>, query: Vector, topK: int, score: Scorer)
    ensures |TopK(Candidates(fetched, query, score), topK)| == Min(Max(0, topK), ParsedCount(fetched))
  {
  }

  /** Scores never increase along `cs`. */
  predicate SortedDesc(cs: seq<Candidate>) {
    forall i, j :: 0 <= i < j < |cs| ==> cs[i].score >= cs[j].score
  }

  /** No candidate of `s` scores more than `v`. */
  predicate AllAtMost(s: seq<Candidate>, v: real) {
    forall j :: 0 <= j < |s| ==> s[j].score <= v
  }

  /** Inserts `x` into the sorted `s` after every candidate that scores at least as much. */
  function Insert(x: Candidate, s: seq<Candidate>): (r: seq<Candidate>)
    requires SortedDesc(s)
    ensures |r| == |s| + 1
    ensures SortedDesc(r)
    ensures multiset(r) == multiset(s) + multiset{x}
    ensures forall v :: AllAtMost(s, v) && x.score <= v ==> AllAtMost(r, v)
  {
    if s == [] then [x]
    else if s[0].score >= x.score then
      SortedTail(s);
      var t := Insert(x, s[1..]);
      InsertBehindHead(x, s, t);
      [s[0]] + t
    else
      InsertInFront(x, s);
      [x] + s
  }

  /** The recursive case of `Insert`: the head stays in front of the insertion into the tail. */
  lemma InsertBehindHead(x: Candidate, s: seq<Candidate>, t: seq<Candidate>)
    requires SortedDesc(s) && s != [] && s[0].score >= x.score
    requires |t| == |s| && SortedDesc(t) && multiset(t) == multiset(s[1..]) + multiset{x}
    requires forall v :: AllAtMost(s[1..], v) && x.score <= v ==> AllAtMost(t, v)
    ensures SortedDesc([s[0]] + t)
    ensures multiset([s[0]] + t) == multiset(s) + multiset{x}
    ensures forall v :: AllAtMost(s, v) && x.score <= v ==> AllAtMost([s[0]] + t, v)
  {
    SortedTail(s);
    ConsSorted(s[0], t);
    assert s == [s[0]] + s[1..];
    forall v | AllAtMost(s, v) && x.score <= v
      ensures AllAtMost(t, v)
    {
      assert AllAtMost(s[1..], v) by {
        forall j | 0 <= j < |s[1..]|
          ensures s[1..][j].score <= v
        {
          assert s[1..][j] == s[j + 1];
        }
      }
    }
    ConsAtMost(s, t);
  }

  /** The other case of `Insert`: a candidate that beats the head goes first. */
  lemma InsertInFront(x: Candidate, s: seq<Candidate>)
    requires SortedDesc(s) && s != [] && s[0].score < x.score
    ensures SortedDesc([x] + s)
    ensures forall v :: AllAtMost(s, v) && x.score <= v ==> AllAtMost([x] + s, v)
  {
    assert AllAtMost(s, x.score) by {
      forall j | 0 <= j < |s|
        ensures s[j].score <= x.score
      {
        assert s[0].score >= s[j].score;
      }
    }
    ConsSorted(x, s);
    forall v | AllAtMost(s, v) && x.score <= v
      ensures AllAtMost([x] + s, v)
    {
      forall j | 0 <= j < |[x] + s|
        ensures ([x] + s)[j].score <= v
      {
        if j > 0 {
          assert ([x] + s)[j] == s[j - 1];
        }
      }
    }
  }

  /** The tail of a descending sequence is descending and bounded by its head. */
  lemma SortedTail(s: seq<Candidate>)
    requires SortedDesc(s) && s != []
    ensures SortedDesc(s[1..]) && AllAtMost(s[1..], s[0].score)
  {
    forall j | 0 <= j < |s[1..]|
      ensures s[1..][j].score <= s[0].score
    {
      assert s[1..][j] == s[j + 1];
    }
  }

  /** A head at least as high as everything after it keeps a descending sequence descending. */
  lemma ConsSorted(h: Candidate, t: seq<Candidate>)
    requires SortedDesc(t) && AllAtMost(t, h.score)
    ensures SortedDesc([h] + t)
  {
    forall i, j | 0 <= i < j < |[h] + t|
      ensures ([h] + t)[i].score >= ([h] + t)[j].score
    {
      assert ([h] + t)[j] == t[j - 1];
      if i > 0 {
        assert ([h] + t)[i] == t[i - 1];
      }
    }
  }

  /** A bound on the head of `s` and on `t` bounds `[s[0]] + t`. */
  lemma ConsAtMost(s: seq<Candidate>, t: seq<Candidate>)
    requires s != []
    ensures forall v :: AllAtMost(s, v) && AllAtMost(t, v) ==> AllAtMost([s[0]] + t, v)
  {
    forall v | AllAtMost(s, v) && AllAtMost(t, v)
      ensures AllAtMost([s[0]] + t, v)
    {
      forall j | 0 <= j < |[s[0]] + t|
        ensures ([s[0]] + t)[j].score <= v
      {
        if j > 0 {
          assert ([s[0]] + t)[j] == t[j - 1];
        }
      }
    }
  }

  /** `candidates.sort(key=score, reverse=True)`, as a value: a descending permutation. */
  function SortDesc(cs: seq<Candidate>): (r: seq<Candidate>)
    ensures SortedDesc(r)
    ensures multiset(r) == multiset(cs)
    ensures |r| == |cs|
  {
    if cs == [] then []
    else
      assert cs == cs[..|cs| - 1] + [cs[|cs| - 1]];
      Insert(cs[|cs| - 1], SortDesc(cs[..|cs| - 1]))
  }

  /** How many candidates survive the slice `[:max(0, top_k)]`. */
  function Kept(n: nat, topK: int): (k: nat)
    ensures k <= n
    ensures topK <= 0 ==> k == 0
    ensures 0 <= topK <= n ==> k == topK
    ensures topK >= n ==> k == n
  {
    Min(Max(0, topK), n)
  }

  /** The result of `search_document` on the given candidates. */
  function TopK(cands: seq<Candidate>, topK: int): (r: seq<Candidate>)
    ensures |r| == Kept(|cands|, topK)
    ensures SortedDesc(r)
  {
    SortDesc(cands)[..Kept(|cands|, topK)]
  }

  /**
   * What a top-k answer is: the right number of candidates, best first,
   * drawn from the candidates, and none of those left behind beats one kept.
   */
  ghost predicate IsTopK(result: seq<Candidate>, cands: seq<Candidate>, topK: int) {
    && |result| == Kept(|cands|, topK)
    && SortedDesc(result)
    && multiset(result) <= multiset(cands)
    && Dominates(result, multiset(cands) - multiset(result))
  }

  /** Every candidate of `kept` scores at least as much as every candidate of `rest`. */
  ghost predicate Dominates(kept: seq<Candidate>, rest: multiset<Candidate>) {
    forall x, y :: x in kept && y in rest ==> y.score <= x.score
  }

  /** In a descending sequence, everything before position `n` scores at least everything after it. */
  lemma SortedPrefixDominates(sorted: seq<Candidate>, n: nat)
    requires SortedDesc(sorted) && n <= |sorted|
    ensures forall x, y :: x in sorted[..n] && y in sorted[n..] ==> y.score <= x.score
  {
    forall x, y | x in sorted[..n] && y in sorted[n..]
      ensures y.score <= x.score
    {
      var i :| 0 <= i < n && sorted[..n][i] == x;
      var j :| 0 <= j < |sorted| - n && sorted[n..][j] == y;
      assert sorted[i] == x && sorted[n + j] == y;
    }
  }

  /** Any prefix of a descending permutation of the candidates is a top-k answer. */
  lemma PrefixOfSortedIsTopK(sorted: seq<Candidate>, cands: seq<Candidate>, topK: int)
    requires SortedDesc(sorted) && multiset(sorted) == multiset(cands) && |sorted| == |cands|
    ensures IsTopK(sorted[..Kept(|cands|, topK)], cands, topK)
  {
    var n := Kept(|cands|, topK);
    var kept, dropped := sorted[..n], sorted[n..];
    assert multiset(cands) - multiset(kept) == multiset(dropped) by {
      assert sorted == kept + dropped;
    }
    assert SortedDesc(kept);
    SortedPrefixDominates(sorted, n);
    assert Dominates(kept, multiset(dropped));
  }

  /** `TopK` meets the top-k description. */
  lemma TopKIsTopK(cands: seq<Candidate>, topK: int)
    ensures IsTopK(TopK(cands, topK), cands, topK)
  {
    PrefixOfSortedIsTopK(SortDesc(cands), cands, topK);
  }

  /** Asking for at least one result on a non-empty document puts the best score first. */
  lemma BestScoreRanksFirst(cands: seq<Candidate>, topK: int)
    requires topK >= 1 && cands != []
    ensures var r := TopK(cands, topK);
      r != [] && forall c :: c in cands ==> c.score <= r[0].score
  {
    var sorted := SortDesc(cands);
    var r := TopK(cands, topK);
    assert r[0] == sorted[0];
    forall c | c in cands
      ensures c.score <= r[0].score
    {
      assert c in multiset(sorted);
      var j :| 0 <= j < |sorted| && sorted[j] == c;
    }
  }

  /**
   * The scoring loop, the sort and the slice of `search_document`, on the
   * rows fetched for the document.
   */
  method Rank(fetched: seq<Row>, query: Vector, topK: int, score: Scorer) returns (result: seq<Candidate>)
    ensures result == TopK(Candidates(fetched, query, score), topK)
    ensures IsTopK(result, Candidates(fetched, query, score), topK)
  {
    var candidates: seq<Candidate> := [];
    for i := 0 to |fetched|
      invariant candidates == Candidates(fetched[..i], query, score)
    {
      assert fetched[..i + 1][..i] == fetched[..i];
      var r := fetched[i];
      if r.embedding.Malformed? {
        continue;
      }
      candidates := candidates + [Candidate(r.chunkId, r.text, score(query, r.embedding.vector))];
    }
    assert fetched[..|fetched|] == fetched;
    var sorted := SortDesc(candidates);
    result := sorted[..Kept(|sorted|, topK)];
    TopKIsTopK(candidates, topK);
  }

  /**
   * `search_document(query, doc_id, top_k)`: embeds the query (`None` when
   * that call raises), fetches the document's rows and ranks them.
   */
  method SearchDocument(store: ChunkStore, query: string, docId: string, topK: int, embed: Embedder, score: Scorer)
    returns (r: Option<seq<Candidate>>)
    ensures embed(query).None? ==> r == None
    ensures embed(query).Some? ==> r == Some(TopK(Candidates(store.Select(docId), embed(query).value, score), topK))
  {
    var q := embed(query);
    if q.None? {
      return None;
    }
    var rows := store.Select(docId);
    var ranked := Rank(rows, q.value, topK, score);
    return Some(ranked);
  }

  /**
   * Every chunk an ingestion writes is a candidate of the next search of
   * its document, with the score of its stored vector.
   */
  lemma IngestedChunkIsCandidate(old_rows: seq<Row>, docId: string, cs: seq<string>, embed: Embedder,
                                 query: Vector, score: Scorer, j: nat)
    requires forall k :: 0 <= k < |cs| ==> embed(cs[k]).Some?
    requires j < |cs|
    ensures Candidate(ChunkId(docId, j), cs[j], score(query, embed(cs[j]).value))
      in Candidates(RowsWithDoc(old_rows + RowsOf(docId, cs, embed), docId), query, score)
  {
    var added := RowsOf(docId, cs, embed);
    SelectAfterIngest(old_rows, docId, cs, embed);
    assert added[j] in RowsWithDoc(old_rows + added, docId);
  }
}

=== FILE: store.dfy ===
/*
 * The `chunks` table and `ingest_document_text` (agent.py).
 *
 * The table is an append-only sequence of rows held by a `ChunkStore`
 * object. The embedding service is a function parameter: it either yields a
 * vector for a chunk or fails (the Python call raises), and a failure ends
 * ingestion with the rows inserted so far left in place, because every row
 * is committed in its own transaction.
 */
module Store {
  import opened Wrappers
  import Numerals
  import Chunker

  /** An embedding vector. */
  type Vector = seq<real>

  /**
   * The `embedding` column is JSON text. Rows written by ingestion always
   * hold a vector; rows already present in the table may hold text that
   * does not parse.
   */
  datatype StoredEmbedding = Json(vector: Vector) | Malformed(raw: string)

  /** One row of the `chunks` table (the auto-increment `id` is left out). */
  datatype Row = Row(docId: string, chunkId: string, text: string, embedding: StoredEmbedding)

  /** The dictionary `{"doc_id": ..., "chunks_added": ...}`. */
  datatype IngestReport = IngestReport(docId: string, chunksAdded: nat)

  /** The embedding call for chunk number `chunkIndex` raised. */
  datatype IngestError = EmbeddingFailed(chunkIndex: nat)

  /** The embedding service: `None` stands for a call that raises. */
  type Embedder = string -> Option<Vector>

  /** The id of chunk `i` of document `docId`: `f"{doc_id}_chunk_{i}"`. */
  function ChunkId(docId: string, i: nat): (id: string)
    ensures |id| > |docId| + 7
    ensures id[..|docId|] == docId
  {
    docId + "_chunk_" + Numerals.Decimal(i)
  }

  /** Within one document, different chunk numbers give different ids. */
  lemma ChunkIdInjective(docId: string, i: nat, j: nat)
    ensures ChunkId(docId, i) == ChunkId(docId, j) <==> i == j
  {
    if ChunkId(docId, i) == ChunkId(docId, j) {
      var prefix := docId + "_chunk_";
      assert ChunkId(docId, i)[|prefix|..] == Numerals.Decimal(i);
      assert ChunkId(docId, j)[|prefix|..] == Numerals.Decimal(j);
      Numerals.DecimalInjective(i, j);
    }
  }

  /** How many chunks, from the first, the embedding service accepts before it first fails. */
  function FirstFailure(cs: seq<string>, embed: Embedder): (k: nat)
    ensures k <= |cs|
    ensures forall j :: 0 <= j < k ==> embed(cs[j]).Some?
    ensures k < |cs| ==> embed(cs[k]).None?
  {
    if cs == [] then 0
    else if embed(cs[0]).None? then 0
    else 1 + FirstFailure(cs[1..], embed)
  }

  /** The rows ingestion writes for the chunks `cs` of document `docId`, all of which embed. */
  function RowsOf(docId: string, cs: seq<string>, embed: Embedder): (rows: seq<Row>)
    requires forall j :: 0 <= j < |cs| ==> embed(cs[j]).Some?
    ensures |rows| == |cs|
    ensures forall j :: 0 <= j < |cs| ==>
      rows[j] == Row(docId, ChunkId(docId, j), cs[j], Json(embed(cs[j]).value))
  {
    if cs == [] then []
    else
      var n := |cs| - 1;
      RowsOf(docId, cs[..n], embed) + [Row(docId, ChunkId(docId, n), cs[n], Json(embed(cs[n]).value))]
  }

  /** One more embedded chunk adds its row at the end. */
  lemma RowsOfStep(docId: string, cs: seq<string>, i: nat, embed: Embedder)
    requires i < |cs| && i < FirstFailure(cs, embed)
    ensures RowsOf(docId, cs[..i + 1], embed) ==
      RowsOf(docId, cs[..i], embed) + [Row(docId, ChunkId(docId, i), cs[i], Json(embed(cs[i]).value))]
  {
    assert cs[..i + 1][..i] == cs[..i];
  }

  /** The rows of `rows` whose `doc_id` is `docId`, in table order (`WHERE doc_id = :doc_id`). */
  function RowsWithDoc(rows: seq<Row>, docId: string): (sel: seq<Row>)
    ensures |sel| <= |rows|
    ensures forall j :: 0 <= j < |sel| ==> sel[j].docId == docId
  {
    if rows == [] then []
    else
      var last := rows[|rows| - 1];
      var before := RowsWithDoc(rows[..|rows| - 1], docId);
      if last.docId == docId then before + [last] else before
  }

  /** The selection holds exactly the rows of the table that belong to the document. */
  lemma {:induction false} RowsWithDocMembers(rows: seq<Row>, docId: string)
    ensures forall r :: r in RowsWithDoc(rows, docId) <==> r in rows && r.docId == docId
    decreases |rows|
  {
    if rows != [] {
      var n := |rows| - 1;
      RowsWithDocMembers(rows[..n], docId);
      assert rows == rows[..n] + [rows[n]];
    }
  }

  /** Selecting from two stretches of the table selects from each in turn. */
  lemma {:induction false} RowsWithDocAppend(a: seq<Row>, b: seq<Row>, docId: string)
    ensures RowsWithDoc(a + b, docId) == RowsWithDoc(a, docId) + RowsWithDoc(b, docId)
    decreases |b|
  {
    if b == [] {
      assert a + b == a;
    } else {
      var n := |b| - 1;
      assert (a + b)[..|a + b| - 1] == a + b[..n];
      RowsWithDocAppend(a, b[..n], docId);
    }
  }

  /** A selection of rows that all belong to the document keeps every row. */
  lemma {:induction false} RowsWithOwnDoc(rows: seq<Row>, docId: string)
    requires forall j :: 0 <= j < |rows| ==> rows[j].docId == docId
    ensures RowsWithDoc(rows, docId) == rows
    decreases |rows|
  {
    if rows != [] {
      RowsWithOwnDoc(rows[..|rows| - 1], docId);
      assert rows == rows[..|rows| - 1] + [rows[|rows| - 1]];
    }
  }

  /** The rows of one ingestion carry pairwise different chunk ids. */
  lemma IngestedChunkIdsDistinct(docId: string, cs: seq<string>, embed: Embedder, i: nat, j: nat)
    requires forall k :: 0 <= k < |cs| ==> embed(cs[k]).Some?
    requires i < j < |cs|
    ensures RowsOf(docId, cs, embed)[i].chunkId != RowsOf(docId, cs, embed)[j].chunkId
  {
    ChunkIdInjective(docId, i, j);
  }

  /**
   * After an ingestion of document `docId`, a search of that document
   * fetches the rows it found before followed by every row just written.
   */
  lemma SelectAfterIngest(old_rows: seq<Row>, docId: string, cs: seq<string>, embed: Embedder)
    requires forall k :: 0 <= k < |cs| ==> embed(cs[k]).Some?
    ensures RowsWithDoc(old_rows + RowsOf(docId, cs, embed), docId) == RowsWithDoc(old_rows, docId) + RowsOf(docId, cs, embed)
  {
    RowsWithDocAppend(old_rows, RowsOf(docId, cs, embed), docId);
    RowsWithOwnDoc(RowsOf(docId, cs, embed), docId);
  }

  /** Ingesting one document leaves the rows of every other document as they were. */
  lemma OtherDocumentsUntouched(old_rows: seq<Row>, docId: string, other: string, cs: seq<string>, embed: Embedder)
    requires forall k :: 0 <= k < |cs| ==> embed(cs[k]).Some?
    requires other != docId
    ensures RowsWithDoc(old_rows + RowsOf(docId, cs, embed), other) == RowsWithDoc(old_rows, other)
  {
    var added := RowsOf(docId, cs, embed);
    RowsWithDocAppend(old_rows, added, other);
    RowsWithoutDoc(added, other);
    assert RowsWithDoc(old_rows, other) + [] == RowsWithDoc(old_rows, other);
  }

  /** Rows that all belong to other documents select nothing. */
  lemma {:induction false} RowsWithoutDoc(rows: seq<Row>, docId: string)
    requires forall j :: 0 <= j < |rows| ==> rows[j].docId != docId
    ensures RowsWithDoc(rows, docId) == []
    decreases |rows|
  {
    if rows != [] {
      RowsWithoutDoc(rows[..|rows| - 1], docId);
    }
  }

  /**
   * Ingesting the same document twice writes the same chunk ids again:
   * the second run's first row repeats the id of the first run's.
   */
  lemma ReingestionRepeatsChunkIds(old_rows: seq<Row>, docId: string, cs: seq<string>, embed: Embedder)
    requires forall k :: 0 <= k < |cs| ==> embed(cs[k]).Some?
    requires cs != []
    ensures var rows := old_rows + RowsOf(docId, cs, embed) + RowsOf(docId, cs, embed);
      rows[|old_rows|].chunkId == rows[|old_rows| + |cs|].chunkId == ChunkId(docId, 0)
  {
  }

  /** The `chunks` table. */
  class ChunkStore {
    var rows: seq<Row>

    /** `create_tables`: opens the table as it is found (`CREATE TABLE IF NOT EXISTS`). */
    constructor (existing: seq<Row>)
      ensures rows == existing
    {
      rows := existing;
    }

    /** `SELECT chunk_id, text, embedding FROM chunks WHERE doc_id = :doc_id`. */
    function Select(docId: string): (sel: seq<Row>)
      reads this
      ensures forall r :: r in sel <==> r in rows && r.docId == docId
    {
      RowsWithDocMembers(rows, docId);
      RowsWithDoc(rows, docId)
    }

    /**
     * `ingest_document_text(doc_id, text)`: chunks the text with the default
     * window (1000 characters, overlap 200) and inserts one row per chunk,
     * in order. The first embedding failure ends the call with the rows
     * written so far kept.
     */
    method IngestDocumentText(docId: string, text: string, embed: Embedder) returns (r: Result<IngestReport, IngestError>)
      modifies this
      ensures var cs := Chunker.Chunks(text, Chunker.MaxChars, Chunker.Overlap);
        var k := FirstFailure(cs, embed);
        && rows == old(rows) + RowsOf(docId, cs[..k], embed)
        && (r.Ok? <==> k == |cs|)
        && (r.Ok? ==> r.value == IngestReport(docId, |cs|))
        && (r.Err? ==> r.error == EmbeddingFailed(k))
    {
      var cs := Chunker.ChunkText(text, Chunker.MaxChars, Chunker.Overlap);
      r := InsertChunks(docId, cs, embed);
    }

    /** The insertion loop of `ingest_document_text`, over the chunks `cs`. */
    method InsertChunks(docId: string, cs: seq<string>, embed: Embedder) returns (r: Result<IngestReport, IngestError>)
      modifies this
      ensures var k := FirstFailure(cs, embed);
        && rows == old(rows) + RowsOf(docId, cs[..k], embed)
        && (r.Ok? <==> k == |cs|)
        && (r.Ok? ==> r.value == IngestReport(docId, |cs|))
        && (r.Err? ==> r.error == EmbeddingFailed(k))
    {
      ghost var k := FirstFailure(cs, embed);
      var inserted: nat := 0;
      for i := 0 to |cs|
        invariant i <= k
        invariant inserted == i
        invariant rows == old(rows) + RowsOf(docId, cs[..i], embed)
      {
        var e := embed(cs[i]);
        if e.None? {
          assert i == k;
          return Err(EmbeddingFailed(i));
        }
        assert i < k;
        RowsOfStep(docId, cs, i, embed);
        rows := rows + [Row(docId, ChunkId(docId, i), cs[i], Json(e.value))];
        inserted := inserted + 1;
      }
      assert cs[..|cs|] == cs;
      return Ok(IngestReport(docId, inserted));
    }
  }
}

=== FILE: strings.dfy ===
/**
 * The pieces of Python's `str` that the chunker relies on: `isspace`,
 * `strip` and `split` with an explicit separator.
 */
module Strings {
  import opened Wrappers

  /** Python's `str.isspace` for one character: the characters `strip()` removes. */
  predicate IsSpace(c: char) {
    || c == ' ' || c == '\t' || c == '\n' || c == '\r' || c == '\U{B}' || c == '\U{C}'
    || ('\U{1C}' <= c <= '\U{1F}')
    || c == '\U{85}' || c == '\U{A0}' || c == '\U{1680}'
    || ('\U{2000}' <= c <= '\U{200A}')
    || c == '\U{2028}' || c == '\U{2029}' || c == '\U{202F}' || c == '\U{205F}' || c == '\U{3000}'
  }

  /** The first index at or after `i` that does not hold whitespace (or `|s|`). */
  function SkipSpaces(s: string, i: nat): (k: nat)
    requires i <= |s|
    ensures i <= k <= |s|
    ensures forall j :: i <= j < k ==> IsSpace(s[j])
    ensures k < |s| ==> !IsSpace(s[k])
    decreases |s| - i
  {
    if i < |s| && IsSpace(s[i]) then SkipSpaces(s, i + 1) else i
  }

  /** The end of `s[..j]` once its trailing whitespace is dropped. */
  function DropSpaces(s: string, j: nat): (k: nat)
    requires j <= |s|
    ensures k <= j
    ensures forall i :: k <= i < j ==> IsSpace(s[i])
    ensures 0 < k ==> !IsSpace(s[k - 1])
    decreases j
  {
    if 0 < j && IsSpace(s[j - 1]) then DropSpaces(s, j - 1) else j
  }

  /** Python's `s.strip()`: `s` without its leading and trailing whitespace. */
  function Strip(s: string): (r: string)
    ensures |r| <= |s|
  {
    var lead := SkipSpaces(s, 0);
    if lead == |s| then [] else s[lead..DropSpaces(s, |s|)]
  }

  /**
   * What `strip` keeps: the stretch of `s` after its leading whitespace,
   * followed only by whitespace, empty exactly when `s` is all whitespace,
   * and neither starting nor ending with whitespace.
   */
  lemma StripSpec(s: string)
    ensures var r, lead := Strip(s), SkipSpaces(s, 0);
      && lead + |r| <= |s| && r == s[lead..lead + |r|]
      && (forall i :: lead + |r| <= i < |s| ==> IsSpace(s[i]))
      && (r == [] <==> forall i :: 0 <= i < |s| ==> IsSpace(s[i]))
      && (r != [] ==> !IsSpace(r[0]) && !IsSpace(r[|r| - 1]))
  {
    var lead, end := SkipSpaces(s, 0), DropSpaces(s, |s|);
    if lead < |s| {
      assert lead < end;
      var r := s[lead..end];
      assert Strip(s) == r;
      assert r[0] == s[lead];
      assert r[|r| - 1] == s[end - 1];
    }
  }

  /** Stripping is idempotent: a stripped string has nothing left to strip. */
  lemma StripIdempotent(s: string)
    ensures Strip(Strip(s)) == Strip(s)
  {
    var r := Strip(s);
    StripSpec(s);
    if r != [] {
      assert SkipSpaces(r, 0) == 0;
      assert DropSpaces(r, |r|) == |r|;
    }
  }

  /** `sep` occurs in `s` starting at index `j`. */
  predicate OccursAt(s: string, sep: string, j: int) {
    0 <= j && j + |sep| <= |s| && s[j..j + |sep|] == sep
  }

  /** An occurrence at `j >= 1` is an occurrence at `j - 1` in the tail. */
  lemma OccursAtShift(s: string, sep: string, j: int)
    requires 1 <= j && s != []
    ensures OccursAt(s, sep, j) == OccursAt(s[1..], sep, j - 1)
  {
    if j + |sep| <= |s| {
      var a, b := s[j..j + |sep|], s[1..][j - 1..j - 1 + |sep|];
      forall k | 0 <= k < |sep|
        ensures a[k] == b[k]
      {
        assert a[k] == s[j + k];
        assert b[k] == s[1..][j - 1 + k];
      }
      assert a == b;
    }
  }

  /** Index of the first occurrence of `sep` in `s`, scanning left to right. */
  function Find(s: string, sep: string): (r: Option<nat>)
    requires sep != []
    ensures r.Some? ==> OccursAt(s, sep, r.value)
    decreases |s|
  {
    if |s| < |sep| then None
    else if s[..|sep|] == sep then Some(0)
    else
      match Find(s[1..], sep)
      case None => None
      case Some(i) =>
        OccursAtShift(s, sep, i + 1);
        Some(i + 1)
  }

  /** `Find` reports the first occurrence, and `None` only when there is none. */
  lemma {:induction false} FindFirst(s: string, sep: string)
    requires sep != []
    ensures Find(s, sep).Some? ==> forall j :: 0 <= j < Find(s, sep).value ==> !OccursAt(s, sep, j)
    ensures Find(s, sep).None? ==> forall j :: !OccursAt(s, sep, j)
    decreases |s|
  {
    if |s| >= |sep| && s[..|sep|] != sep {
      FindFirst(s[1..], sep);
      forall j | 1 <= j
        ensures OccursAt(s, sep, j) == OccursAt(s[1..], sep, j - 1)
      {
        OccursAtShift(s, sep, j);
      }
      assert !OccursAt(s, sep, 0);
    }
  }

  /** Python's `s.split(sep)`: the pieces between non-overlapping occurrences of `sep`. */
  function Split(s: string, sep: string): (parts: seq<string>)
    requires sep != []
    ensures |parts| >= 1
    decreases |s|
  {
    match Find(s, sep)
    case None => [s]
    case Some(i) => [s[..i]] + Split(s[i + |sep|..], sep)
  }

  /** No piece of a split contains the separator. */
  lemma {:induction false} SplitPiecesLackSeparator(s: string, sep: string)
    requires sep != []
    ensures forall k :: 0 <= k < |Split(s, sep)| ==> forall j :: !OccursAt(Split(s, sep)[k], sep, j)
    decreases |s|
  {
    if Find(s, sep).Some? {
      var i := Find(s, sep).value;
      var rest := Split(s[i + |sep|..], sep);
      SplitPiecesLackSeparator(s[i + |sep|..], sep);
      HeadLacksSeparator(s, sep);
      SplitAtFirst(s, sep);
      ConsLacksSeparator(s[..i], rest, sep);
    } else {
      FindFirst(s, sep);
      assert Split(s, sep) == [s];
    }
  }

  /** The text before the first occurrence does not contain the separator. */
  lemma HeadLacksSeparator(s: string, sep: string)
    requires sep != [] && Find(s, sep).Some?
    ensures forall j :: !OccursAt(s[..Find(s, sep).value], sep, j)
  {
    var i := Find(s, sep).value;
    var head := s[..i];
    FindFirst(s, sep);
    forall j ensures !OccursAt(head, sep, j) {
      if OccursAt(head, sep, j) {
        assert head[j..j + |sep|] == s[j..j + |sep|];
        assert OccursAt(s, sep, j);
      }
    }
  }

  /** A piece without the separator in front of pieces without it. */
  lemma ConsLacksSeparator(head: string, parts: seq<string>, sep: string)
    requires forall j :: !OccursAt(head, sep, j)
    requires forall k :: 0 <= k < |parts| ==> forall j :: !OccursAt(parts[k], sep, j)
    ensures forall k :: 0 <= k < |[head] + parts| ==> forall j :: !OccursAt(([head] + parts)[k], sep, j)
  {
    forall k | 0 <= k < |[head] + parts|
      ensures forall j :: !OccursAt(([head] + parts)[k], sep, j)
    {
      if k > 0 {
        assert ([head] + parts)[k] == parts[k - 1];
      }
    }
  }

  /** Python's `sep.join(parts)`. */
  function Join(parts: seq<string>, sep: string): string
    decreases |parts|
  {
    if |parts| == 0 then []
    else if |parts| == 1 then parts[0]
    else parts[0] + sep + Join(parts[1..], sep)
  }

  /** Splitting loses nothing: joining the pieces with the separator gives back the text. */
  lemma {:induction false} JoinSplit(s: string, sep: string)
    requires sep != []
    ensures Join(Split(s, sep), sep) == s
    decreases |s|
  {
    if Find(s, sep).None? {
      assert Split(s, sep) == [s];
    } else {
      var i := Find(s, sep).value;
      JoinSplit(s[i + |sep|..], sep);
      JoinSplitStep(s, sep);
    }
  }

  /** One step of JoinSplit: the first piece, the separator, and the rest. */
  lemma JoinSplitStep(s: string, sep: string)
    requires sep != [] && Find(s, sep).Some?
    requires Join(Split(s[Find(s, sep).value + |sep|..], sep), sep) == s[Find(s, sep).value + |sep|..]
    ensures Join(Split(s, sep), sep) == s
  {
    var i := Find(s, sep).value;
    var rest := s[i + |sep|..];
    SplitAtFirst(s, sep);
    JoinCons(s[..i], Split(rest, sep), sep);
    Reassemble(s, sep, i);
  }

  /** Unfolding `Split` at the first occurrence. */
  lemma SplitAtFirst(s: string, sep: string)
    requires sep != [] && Find(s, sep).Some?
    ensures Split(s, sep) == [s[..Find(s, sep).value]] + Split(s[Find(s, sep).value + |sep|..], sep)
  {
  }

  /** Joining a first piece onto at least one more. */
  lemma JoinCons(head: string, parts: seq<string>, sep: string)
    requires parts != []
    ensures Join([head] + parts, sep) == head + sep + Join(parts, sep)
  {
    assert ([head] + parts)[1..] == parts;
  }

  /** A text is what comes before an occurrence, the occurrence, and what follows. */
  lemma Reassemble(s: string, sep: string, i: nat)
    requires OccursAt(s, sep, i)
    ensures s[..i] + sep + s[i + |sep|..] == s
  {
    assert s == s[..i] + s[i..i + |sep|] + s[i + |sep|..];
  }
}

=== FILE: wrappers.dfy ===
/** Failure-carrying values shared by the other modules. */
module Wrappers {

  datatype Option<+T> = None | Some(value: T)

  datatype Result<+T, +E> = Ok(value: T) | Err(error: E)

  function Min(a: int, b: int): int { if a <= b then a else b }

  function Max(a: int, b: int): int { if a >= b then a else b }
}
